=== FILE: README.md ===
# Wallet store and todo programs, modelled in Dafny

This project models the core of a small Solana application:

- the **wallet connection store** of the Svelte front end (`createWalletStore`), a state
  machine over `NotReady`, `Ready`, `Connecting` and `Connected` that selects one wallet
  adapter at a time, tracks its connection through adapter events, and exposes
  connection-gated `sendTransaction` and signing wrappers;
- the **`todo` on-chain program**: bounded todo lists whose items carry a lamport bounty,
  with permission-checked cancellation and a two-party completion handshake;
- the **`p0001` on-chain program**: an account holding an append-only list of strings.

## Files

| file | contents |
|---|---|
| `results.dfy` | `Option` and `Result` |
| `writable.dfy` | `wrappedWritableStore` as a cell with a synchronous getter and its publication history |
| `wallets.dfy` | the wallet store: data model, every operation, event handling, autoconnect, the `Step` function |
| `wallet_properties.dfy` | the reachable-store invariant and the lemmas about the wallet store |
| `borsh.dfy` | the Borsh encodings Anchor stores accounts with, used to reason about account sizes |
| `todo.dfy` | the `todo` program: accounts, errors, instructions, atomic `Execute` |
| `todo_properties.dfy` | the ledger invariant and the lemmas about the `todo` program |
| `line_store.dfy` | the `p0001` program |

## How the model is built

**Wallet store.** Every operation is a pure function from a `Store` (the closure state of
one `createWalletStore` call) to an `Outcome`: the next store, the calls made on the outside
world (`Effect`s: adapter calls, local-storage writes, `window.open`, error reports) and how
the caller's promise settles. Anything the outside world decides is an explicit input: how
an adapter call settles (`AdapterCall`), which events an adapter emits (tagged with the
adapter object's identity), and the name read from local storage at start-up. `connect()` is
split at its `await` into `Connect` and `ConnectSettled`, so adapter events can arrive in
between. `Step` runs one input and then the autoconnect subscriber. Wallet objects carry an
`id` standing for their identity, since the source compares them with `===`. Snapshots are
published through the `Writable.Cell`, whose history is what a subscriber observes.

**Todo program.** The ledger is a `State`: the program's list and item accounts by address,
and every account's lamports. Each instruction returns the next state or the error the
transaction fails with; `Execute` keeps the changes only on success, since a Solana
transaction is atomic. Runtime failures outside the program's own code appear only as far as
they decide success: an account that is not one of the program's (`AccountNotInitialized`),
an `init` address already in use, a payer who cannot cover rent or a transfer, and a new list
account larger than the 10 KiB an instruction may add (`MAX_PERMITTED_DATA_INCREASE`). The rent
deposit that Anchor's `init` takes is a parameter (`rent`).

**p0001.** `initialize` and `add` push one string. The account is created with `8 + 128`
bytes and Anchor writes the whole vector back after each instruction, so the push fails
once the encoded vector no longer fits.

**Behaviour of the code worth knowing, all of it modelled as written:**
- `select(null)` reads `wallets[null]`, which JavaScript turns into `wallets["null"]`; with
  a wallet registered as "null" it switches to that wallet (`DeselectReadsNullName`).
- `select` of the wallet already shown still writes the name to local storage first.
- `connect()` goes ahead from `Connected` too: it publishes `Connecting` and calls the adapter.
- `connect()` has no guard against a connection in progress either: from `Connecting` it
  publishes `Connecting` again and makes a second adapter `connect` call while the first is
  still pending (`ConnectWhileConnectingCallsAgain`).
- If the old adapter's `disconnect()` rejects during a switch, the rejection propagates
  after its handlers were removed: that adapter stays current but silent, and nothing is
  published.
- `publicKey` is never written by the store and stays `null`.
- A rejected `connect()` resets the state from `Connecting` to `Ready` whichever adapter the
  promise came from: the check looks only at the state, so the failure of an adapter that
  `select` has since replaced still resets a connection the new adapter has started.
- Two `select` calls that overlap while the old adapter's `disconnect()` is pending both
  unsubscribe that adapter; the first then installs and subscribes a new one, and the second
  overwrites it (with `null` or another adapter) without unsubscribing it. The leaked adapter's
  events still change the store: after `select("Solflare"); select(null)`, its `ready` event
  publishes `Ready` with no wallet and no adapter. The model runs each `select` as one step, so
  it cannot reach this state (see "## Left out").
- `finish` checks "is the creator" before "is the list owner", so an item created by the list
  owner can never be completed by `finish` (`OwnersOwnItemNeverCompletes`); `cancel` still
  refunds it.

## Model

| member | source | states |
|---|---|---|
| `Writable.WritesArePublishedInOrder` | app/src/lib/wallets.ts:77-90 | after any run of writes the getter returns the last value written and subscribers have seen the initial value followed by every write, in order |
| `Wallets.Registry` | app/src/lib/wallets.ts:94-96 | every configured wallet name is a key, and each key maps to the last configured wallet with that name |
| `Wallets.SetState` | app/src/lib/wallets.ts:137-142 | publishes a snapshot differing from the current one only in its state; the rest of the store is untouched and earlier publications are kept |
| `Wallets.SwitchAdapter` | app/src/lib/wallets.ts:144-209 | the old adapter is unsubscribed and disconnected before anything else; if that rejects, the error propagates and only the old adapter's subscription changed; otherwise the state is `NotReady`, the wallet is the requested one or null, a fresh subscribed adapter is current, and each signing wrapper is defined iff the new adapter has that method (none without a wallet) |
| `Wallets.Select` | app/src/lib/wallets.ts:211-225 | rejects with WalletNotFound iff the name is truthy and unregistered, and then changes nothing and has no effect; otherwise persists the name ("" for null) first; selecting the wallet already shown leaves the store unchanged and calls no adapter; any other successful select shows the looked-up wallet in state `NotReady` |
| `Wallets.SwitchAdapterIsQuiet` | app/src/lib/wallets.ts:144-209 | `switchAdapter` publishes no `Ready` snapshot, only the reset and the new wallet, and with no adapter to replace it calls no adapter method |
| `Wallets.SelectIsQuiet` | app/src/lib/wallets.ts:211-225 | `select` publishes no `Ready` snapshot, and with no current adapter it calls no adapter method |
| `Wallets.Connect` | app/src/lib/wallets.ts:227-241 | without an adapter rejects with "No wallet selected" and does nothing; in `NotReady` rejects (WalletNotReady after opening the install URL) without calling the adapter or changing the store; succeeds iff an adapter is current and the state is not `NotReady`, then publishes `Connecting` and calls the adapter's connect once; never sets `Connected` |
| `Wallets.ConnectSettled` | app/src/lib/wallets.ts:242-248 | a rejected adapter connect is passed on to the caller, and reverts the state to `Ready` exactly when it is still `Connecting`; a resolved one changes nothing |
| `Wallets.Disconnect` | app/src/lib/wallets.ts:251-257 | never changes the store; without an adapter it resolves with no effect, with one it calls the adapter's disconnect and settles as that call does |
| `Wallets.SendTransaction` | app/src/lib/wallets.ts:259-280 | never changes the store; rejects with WalletNotConnected and calls nothing unless `Connected`; calls the adapter iff connected with an adapter, and then returns the adapter's answer unchanged |
| `Wallets.Sign` | app/src/lib/wallets.ts:171-199 | never changes the store; rejects with WalletNotConnected and calls nothing unless `Connected`; calls the current adapter iff connected and that adapter has the method, and then returns its answer unchanged |
| `Wallets.OnEvent` | app/src/lib/wallets.ts:116-135 | events from an adapter that is not current and subscribed change nothing; `connect` publishes `Connected`, `ready` and `disconnect` publish `Ready`, changing only the state; `error` is reported and changes nothing |
| `Wallets.Create` | app/src/lib/wallets.ts:93-114 | a new store has the registry of the configured wallets and state `NotReady`; without a saved name it shows the initial snapshot and makes no call; it never calls an adapter, and it returns normally even when the saved name is no longer registered |
| `Wallets.FirstSelectIsQuiet` | app/src/lib/wallets.ts:298-304 | resuming a saved wallet before any adapter exists ends `NotReady`, calls no adapter, and does not wake the autoconnect subscriber, so it is exactly that `select` |
| `WalletProperties.CreateEstablishesInv` | app/src/lib/wallets.ts:299-304 | every new store, including one that resumes the saved wallet, satisfies the store invariant |
| `WalletProperties.StepPreservesInv` | app/src/lib/wallets.ts:144-209 | every input, followed by autoconnect, keeps the invariant: a wallet is shown iff an adapter is current, the wrappers mirror that adapter's methods, no adapter means `NotReady` and no wrappers, `publicKey` stays null |
| `WalletProperties.RunPreservesInv` | app/src/lib/wallets.ts:116-135 | the invariant holds after any sequence of inputs, whatever the order adapter events arrive in |
| `WalletProperties.SignersMirrorAdapter` | app/src/lib/wallets.ts:154-208 | in a reachable store a signing wrapper is defined iff the current adapter has the method; all are undefined when no wallet is shown |
| `WalletProperties.HeldWrapperReachesAdapter` | app/src/lib/wallets.ts:173-178 | a wrapper taken from the current snapshot calls the adapter and passes its answer on when connected, and otherwise rejects with WalletNotConnected without calling |
| `WalletProperties.GatedCallsNeedConnection` | app/src/lib/wallets.ts:264-267 | sending or signing never changes the store and calls the adapter only in a connected store with an adapter |
| `WalletProperties.ReplacedAdapterIsSilenced` | app/src/lib/wallets.ts:145-152 | once `select` has replaced an adapter, or failed while tearing it down, no event from it changes the store or has an effect, after any later run of inputs |
| `WalletProperties.StepKeepsSilent` | app/src/lib/wallets.ts:144-209 | no input, nor the autoconnect that may follow it, makes the store listen again to an adapter it has stopped listening to: later adapters always get fresh identities |
| `WalletProperties.ConnectWhileConnectingCallsAgain` | app/src/lib/wallets.ts:227-240 | from `Connecting`, `connect()` succeeds, republishes `Connecting` and makes a second adapter connect call |
| `WalletProperties.DeselectClearsSnapshot` | app/src/lib/wallets.ts:220-224 | `select(null)` with a successful teardown leaves no adapter, no wallet, state `NotReady` and all wrappers undefined |
| `WalletProperties.DeselectReadsNullName` | app/src/lib/wallets.ts:220-224 | `select(null)` switches to a wallet registered under the name "null" |
| `WalletProperties.AutoconnectOnReady` | app/src/lib/wallets.ts:284-292 | with autoconnect, a `ready` event from the current adapter ends in `Connecting` with exactly one adapter connect call |
| `WalletProperties.NoAutoconnectOnReady` | app/src/lib/wallets.ts:130-135 | without autoconnect the same event only publishes `Ready` and calls nothing |
| `WalletProperties.AutoconnectRetriesFailedConnect` | app/src/lib/wallets.ts:242-248 | with autoconnect, a failed connect is reported to its caller and immediately retried: the state is `Connecting` again after one new adapter connect call |
| `WalletProperties.AutoconnectIgnoresOtherStates` | app/src/lib/wallets.ts:285-288 | an input that publishes no `Ready` snapshot triggers no autoconnect call |
| `WalletProperties.PhantomScenario` | app/src/lib/wallets.ts:227-280 | select, ready event, connect, connect event, send and disconnect walk through `NotReady`, `Ready`, `Connecting`, `Connected` and back to `Ready`, and the send returns the adapter's signature |
| `Todo.Transfer` | programs/todo/src/lib.rs:40-54 | moves the amount from payer to payee and changes no other balance |
| `Todo.Close` | programs/todo/src/lib.rs:75 | the closed account's lamports all go to the destination and it stops being a program account; no other account changes |
| `Todo.RemoveAll` | programs/todo/src/lib.rs:78 | the result holds exactly the keys other than the removed one, each as often as before, and is shorter when the key occurred |
| `Todo.NewList` | programs/todo/src/lib.rs:11-18 | succeeds iff the address is free, the payer covers the rent and the list's account size is at most 10 KiB (else `InvalidRealloc`); the new list is owned by the signer, carries the name and capacity, and is empty; the payer pays the rent to the new account and no other balance changes |
| `Todo.Add` | programs/todo/src/lib.rs:20-57 | when the signer is not the item address, succeeds iff the list exists, the item address is unused, the list has room, the bounty covers the rent and the signer can pay the bounty; fails with ListFull iff the accounts load and the list holds capacity or more keys; with BountyTooSmall iff the list has room and the bounty is below the rent the new account already holds; on success appends exactly the item key, records the signer as creator with both flags false, leaves the item holding exactly the bounty, takes the bounty from the signer and changes no other balance or list |
| `Todo.Cancel` | programs/todo/src/lib.rs:59-81 | succeeds iff both accounts exist, the creator account is the item's creator, the signer is the list owner or the creator, and the item is in the list; fails with WrongItemCreator iff the creator account is not the item's creator, with CancelPermissions iff the signer is neither list owner nor creator, with ItemNotFound iff the item is not in the list, in that order; on success removes every occurrence of the item from the list, closes the item and moves its lamports to the creator |
| `Todo.Finish` | programs/todo/src/lib.rs:83-107 | succeeds iff both accounts exist, the owner account is the list's owner, the item is in the list and the signer is its creator or the list owner; fails with WrongListOwner, ItemNotFound or FinishPermissions exactly in the source's cases; the creator sets only the creator flag, else the list owner sets only the owner flag; when both flags are set the item leaves the list, its account is emptied into the list owner's and no other balance changes, otherwise only the item's flag changes |
| `TodoProperties.RemoveAllDistributes` | programs/todo/src/lib.rs:78 | `retain` keeps the order of the surviving keys: removing from a concatenation is the concatenation of the removals |
| `TodoProperties.RemoveAfterAppend` | programs/todo/src/lib.rs:29 | appending an absent key and removing it gives back the original vector |
| `TodoProperties.ListSizeLimit` | programs/todo/src/lib.rs:181-188 | the runtime's 10 KiB limit admits a list exactly when its name length plus 32 bytes per key is at most 10190, so an unnamed list holds at most 318 keys |
| `TodoProperties.ListFitsItsAccount` | programs/todo/src/lib.rs:180-188 | a list's stored bytes fit the `TodoList::space` account iff it holds at most capacity keys, filling it exactly when full |
| `TodoProperties.ItemFitsItsAccount` | programs/todo/src/lib.rs:199-203 | an item's stored bytes fill the `ListItem::space` account for its name exactly |
| `TodoProperties.ExecutePreservesInv` | programs/todo/src/lib.rs:25-27 | every transaction keeps the ledger invariant: lists within capacity, lists and items at distinct addresses, every listed key a live item, no item in two lists |
| `TodoProperties.ListsAlwaysFit` | programs/todo/src/lib.rs:132 | after any sequence of transactions every list still fits the account allocated for it |
| `TodoProperties.AddThenCancelRestores` | programs/todo/src/lib.rs:59-81 | cancelling one's own item right after adding it restores the lists and items and refunds everything the creator paid |
| `TodoProperties.FinishHandshake` | programs/todo/src/lib.rs:92-104 | after the first of creator and owner finishes, the item stays listed with its bounty; after the second, in either order, it is gone and the owner received its lamports |
| `TodoProperties.OwnersOwnItemNeverCompletes` | programs/todo/src/lib.rs:92-98 | on an item created by the list owner, a successful `finish` never sets the owner flag nor removes the item |
| `LineStore.Initialize` | programs/p0001/src/lib.rs:8-12 | succeeds iff the line fits the 128-byte account, and the account then holds exactly that line |
| `LineStore.Add` | programs/p0001/src/lib.rs:14-18 | a successful add grows the vector by one, puts the line last and leaves every earlier line unchanged |
| `LineStore.AddSucceedsIffRoomLeft` | programs/p0001/src/lib.rs:23 | add succeeds iff the encoded vector plus four bytes and the new line fit in the 128 bytes after the discriminator |
| `LineStore.AtMostThirtyOneLines` | programs/p0001/src/lib.rs:23 | an account whose lines fit never holds more than 31 lines |
| `LineStore.AddAllAppends` | programs/p0001/src/lib.rs:14-18 | a run of successful adds appends exactly its lines, in order |

## Left out

- Browser I/O: local storage is represented by the `Persist` effect and by the saved name given to `Create`; `window.open` by the `OpenUrl` effect.
- The Svelte `onDestroy` teardown (unsubscribe autoconnect, `select(null)`): a framework lifecycle hook.
- Svelte subscriber fan-out and notification queueing: the model records the order of writes, not when each subscriber runs.
- Caller calls interleaved with an operation that is awaiting the adapter are not modelled, except for `connect()`, which is split at its `await`; `select` is modelled as one step once the old adapter's disconnect settles.
- Lookups of inherited JavaScript property names (e.g. a wallet name "toString") in the registry object.
- `walletConnectionStateLabels`: display strings only.
- Adapter internals, cryptographic signing, transactions and connections: signatures and signed payloads are opaque numbers.
- `Wallets.Create`: does not state the effects of resuming a saved wallet beyond the invariant, because they are those of `Select`.
- `WalletProperties.StepPreservesInv`: holds only because `select` is one step; overlapping selects can leak a subscribed adapter whose `ready` event publishes `Ready` with no adapter current, which breaks "no adapter ⇒ `NotReady`".
- `WalletProperties.RunPreservesInv`: assumes no two `select` calls overlap, for the same reason.
- `WalletProperties.ReplacedAdapterIsSilenced`: assumes no two `select` calls overlap; an adapter leaked by overlapping selects is replaced yet still listened to.
- `Todo.Add`: does not model the 10 KiB limit on the new item account, which only a name of more than 10 000 bytes would reach; such a name does not fit in a transaction.
- The rent-exempt minimum (a runtime computation), transaction fees and the `declare_id!` program id.
- Lamport balances are unbounded: a `u64` overflow of a balance is not modelled.
- Account data of the `p0001` account is not funded or checked for prior use; only the size limit is modelled.
- `tests/p0001.js` calls `create` and `increment`, which the program does not define.
- `app/src/lib/context.ts` and `app/svelte.config.js`: a thin Svelte context wrapper and build configuration.

=== FILE: borsh.dfy ===
/**
 * The parts of the Borsh binary encoding that Anchor uses to store the accounts of the
 * two on-chain programs: little-endian fixed-width integers, booleans, length-prefixed
 * byte strings and length-prefixed vectors. Only what is needed to reason about how
 * many bytes an account occupies is modelled.
 */
module Borsh {

  type byte = b: int | 0 <= b < 0x100
  type u16 = n: int | 0 <= n < 0x1_0000
  type u32 = n: int | 0 <= n < 0x1_0000_0000
  type u64 = n: int | 0 <= n < 0x1_0000_0000_0000_0000

  /** A Solana public key: 32 opaque bytes, compared only for equality. */
  type Pubkey = k: seq<byte> | |k| == 32 witness seq(32, _ => 0)

  /** Rust `String`s hold UTF-8 bytes and `len()` counts bytes, so names are byte strings. */
  type Bytes = seq<byte>

  /** A string decoded from instruction data: its u32 length prefix bounds its length. */
  type Str = s: Bytes | |s| < 0x1_0000_0000

  /** Bytes of the discriminator Anchor writes before the Borsh data of every account. */
  const DiscriminatorSize := 8

  function EncodeU16(x: u16): (r: seq<byte>)
    ensures |r| == 2
    ensures r[0] as int + 0x100 * (r[1] as int) == x
  {
    [x % 0x100, x / 0x100]
  }

  function EncodeU32(x: u32): (r: seq<byte>)
    ensures |r| == 4
    ensures DecodeU32(r) == x
  {
    var q1 := x / 0x100;
    var q2 := q1 / 0x100;
    var q3 := q2 / 0x100;
    assert x == x % 0x100 + 0x100 * q1;
    assert q1 == q1 % 0x100 + 0x100 * q2;
    assert q2 == q2 % 0x100 + 0x100 * q3;
    [x % 0x100, q1 % 0x100, q2 % 0x100, q3]
  }

  /** Reads a little-endian 32-bit integer from the first four bytes. */
  function DecodeU32(b: seq<byte>): u32
    requires |b| >= 4
  {
    b[0] as int + 0x100 * (b[1] as int) + 0x1_0000 * (b[2] as int) + 0x100_0000 * (b[3] as int)
  }

  function EncodeBool(b: bool): (r: seq<byte>)
    ensures |r| == 1
    ensures r[0] == 1 <==> b
  {
    if b then [1] else [0]
  }

  /** A `String` (or `&str`): a u32 byte count followed by the bytes themselves. */
  function EncodeString(s: Bytes): (r: seq<byte>)
    requires |s| < 0x1_0000_0000
    ensures |r| == 4 + |s|
    ensures DecodeU32(r) == |s| && r[4..] == s
  {
    EncodeU32(|s|) + s
  }

  /** The keys of a `Vec<Pubkey>` laid end to end, without the length prefix. */
  function ConcatKeys(ks: seq<Pubkey>): (r: seq<byte>)
    ensures |r| == 32 * |ks|
    ensures forall i :: 0 <= i < |ks| ==> r[32 * i .. 32 * i + 32] == ks[i]
  {
    if |ks| == 0 then []
    else
      var rest := ConcatKeys(ks[1..]);
      var r := ks[0] + rest;
      assert forall i :: 1 <= i < |ks| ==> r[32 * i .. 32 * i + 32] == rest[32 * (i - 1) .. 32 * (i - 1) + 32];
      r
  }

  /** A `Vec<Pubkey>`: a u32 element count followed by the keys. */
  function EncodeKeys(ks: seq<Pubkey>): (r: seq<byte>)
    requires |ks| < 0x1_0000_0000
    ensures |r| == 4 + 32 * |ks|
    ensures DecodeU32(r) == |ks|
  {
    EncodeU32(|ks|) + ConcatKeys(ks)
  }

  /** Sum of the encoded sizes of the strings of a `Vec<String>`, without the length prefix. */
  function StringsSize(ss: seq<Bytes>): nat
  {
    if |ss| == 0 then 0 else 4 + |ss[0]| + StringsSize(ss[1..])
  }

  /** The strings of a `Vec<String>`, each length-prefixed, laid end to end. */
  function ConcatStrings(ss: seq<Bytes>): (r: seq<byte>)
    requires forall i :: 0 <= i < |ss| ==> |ss[i]| < 0x1_0000_0000
    ensures |r| == StringsSize(ss)
  {
    if |ss| == 0 then [] else EncodeString(ss[0]) + ConcatStrings(ss[1..])
  }

  /** A `Vec<String>`: a u32 element count followed by the length-prefixed strings. */
  function EncodeStrings(ss: seq<Bytes>): (r: seq<byte>)
    requires |ss| < 0x1_0000_0000
    requires forall i :: 0 <= i < |ss| ==> |ss[i]| < 0x1_0000_0000
    ensures |r| == 4 + StringsSize(ss)
    ensures DecodeU32(r) == |ss|
  {
    EncodeU32(|ss|) + ConcatStrings(ss)
  }

  /** Appending one string grows the encoded vector by that string's encoded size. */
  lemma {:induction false} StringsSizeAppend(ss: seq<Bytes>, s: Bytes)
    ensures StringsSize(ss + [s]) == StringsSize(ss) + 4 + |s|
    decreases |ss|
  {
    if |ss| == 0 {
      assert ss + [s] == [s];
    } else {
      assert (ss + [s])[1..] == ss[1..] + [s];
      StringsSizeAppend(ss[1..], s);
    }
  }

  /** Every string costs at least its four-byte length prefix. */
  lemma {:induction false} StringsSizeAtLeastPrefixes(ss: seq<Bytes>)
    ensures StringsSize(ss) >= 4 * |ss|
    decreases |ss|
  {
    if |ss| > 0 {
      StringsSizeAtLeastPrefixes(ss[1..]);
    }
  }
}

=== FILE: line_store.dfy ===
/**
 * The `p0001` on-chain program: an account holding a growing list of strings. Anchor
 * creates the account with `8 + 128` bytes and writes the whole list back after each
 * instruction, so an instruction fails once the encoded list no longer fits.
 */
module LineStore {
  import opened Results
  import opened Borsh

  datatype BaseAccount = BaseAccount(lines: seq<Str>)

  /** `space = 8 + 128` in the `Initialize` accounts. */
  const AccountSpace := 8 + 128

  /** Anchor cannot write the account back into its fixed-size data. */
  datatype Error = AccountDidNotSerialize

  /** The list, Borsh-encoded after the discriminator, fits the account. */
  predicate Fits(lines: seq<Str>) {
    |lines| < 0x1_0000_0000 && DiscriminatorSize + |EncodeStrings(lines)| <= AccountSpace
  }

  /** Pushes `line` and writes the account back, which fails if it has outgrown its space. */
  function Push(acct: BaseAccount, line: Str): (r: Result<BaseAccount, Error>)
    ensures r.Ok? <==> Fits(acct.lines + [line])
    ensures r.Ok? ==>
      && |r.value.lines| == |acct.lines| + 1
      && r.value.lines[|acct.lines|] == line
      && r.value.lines[..|acct.lines|] == acct.lines
  {
    var lines := acct.lines + [line];
    if Fits(lines) then Ok(BaseAccount(lines)) else Err(AccountDidNotSerialize)
  }

  /** `initialize`: the freshly created account holds no lines; `first_line` is pushed. */
  function Initialize(firstLine: Str): (r: Result<BaseAccount, Error>)
    ensures r.Ok? <==> |firstLine| <= 120
    ensures r.Ok? ==> r.value.lines == [firstLine]
  {
    Push(BaseAccount([]), firstLine)
  }

  /** `add`: pushes `line`; no signer is required. */
  function Add(acct: BaseAccount, line: Str): (r: Result<BaseAccount, Error>)
    ensures r.Ok? ==>
      && |r.value.lines| == |acct.lines| + 1
      && r.value.lines[|acct.lines|] == line
      && forall i :: 0 <= i < |acct.lines| ==> r.value.lines[i] == acct.lines[i]
  {
    Push(acct, line)
  }

  /** `add` succeeds exactly when the encoded lines so far plus four bytes and the new line fit in 128. */
  lemma AddSucceedsIffRoomLeft(acct: BaseAccount, line: Str)
    requires Fits(acct.lines)
    ensures Add(acct, line).Ok? <==> 4 + StringsSize(acct.lines) + 4 + |line| <= 128
  {
    StringsSizeAtLeastPrefixes(acct.lines);
    StringsSizeAppend(acct.lines, line);
  }

  /** Every line costs at least four bytes, so an account never holds more than 31 lines. */
  lemma AtMostThirtyOneLines(acct: BaseAccount)
    requires Fits(acct.lines)
    ensures |acct.lines| <= 31
  {
    StringsSizeAtLeastPrefixes(acct.lines);
  }

  /** Applies `add` for each line in turn, stopping at the first failure. */
  function AddAll(acct: BaseAccount, lines: seq<Str>): Result<BaseAccount, Error>
    decreases |lines|
  {
    if |lines| == 0 then Ok(acct)
    else
      match Add(acct, lines[0])
      case Err(e) => Err(e)
      case Ok(next) => AddAll(next, lines[1..])
  }

  /** A run of successful `add`s appends exactly its lines, in order, to the account. */
  lemma {:induction false} AddAllAppends(acct: BaseAccount, lines: seq<Str>)
    ensures AddAll(acct, lines).Ok? ==> AddAll(acct, lines).value.lines == acct.lines + lines
    decreases |lines|
  {
    if |lines| > 0 {
      var r := Add(acct, lines[0]);
      if r.Ok? {
        assert r.value.lines == acct.lines + [lines[0]];
        AddAllAppends(r.value, lines[1..]);
        assert acct.lines + [lines[0]] + lines[1..] == acct.lines + lines;
      }
    }
  }
}

=== FILE: results.dfy ===
/** Failure-carrying return values shared by every model in this project. */
module Results {

  /** A value that may be absent (JavaScript `null`/`undefined`, Rust `Option`). */
  datatype Option<+T> = None | Some(value: T)

  /** The outcome of an operation that either produces a value or fails with an error. */
  datatype Result<+T, +E> = Ok(value: T) | Err(error: E)
}

=== FILE: todo.dfy ===
/**
 * The `todo` on-chain program: shared todo lists whose items carry a bounty in lamports.
 * Anyone may add an item to a list that is not full; the list owner or the item's
 * creator may cancel it, refunding the creator; the item is completed, and its bounty
 * paid to the list owner, once both the creator and the list owner have called `finish`.
 *
 * The ledger is a `State` value. Each instruction is a function returning the next state
 * or the error the transaction fails with; `Execute` commits the state only on success,
 * as a Solana transaction is atomic.
 */
module Todo {
  import opened Results
  import opened Borsh

  datatype TodoList = TodoList(listOwner: Pubkey, capacity: u16, name: Str, lines: seq<Pubkey>)

  datatype ListItem = ListItem(creator: Pubkey, creatorFinished: bool, listOwnerFinished: bool, name: Str)

  /** The program's own error codes. */
  datatype TodoListError =
    | ListFull
    | BountyTooSmall
    | CancelPermissions
    | FinishPermissions
    | ItemNotFound
    | WrongListOwner
    | WrongItemCreator

  /**
   * Why a transaction fails: one of the program's errors, or one raised before or
   * around the handler by the account loader or the system program.
   */
  datatype Error =
    | Program(code: TodoListError)
    | AccountNotInitialized   // the account holds no TodoList / ListItem of this program
    | AccountInUse            // an `init` account already exists
    | InsufficientFunds       // a payer cannot cover rent or a transfer
    | InvalidRealloc          // an account created by the instruction is larger than the runtime allows

  /**
   * The accounts of the program and every account's lamports. `lists` and `items`
   * hold the accounts this program owns, by address.
   */
  datatype State = State(lists: map<Pubkey, TodoList>, items: map<Pubkey, ListItem>, lamports: map<Pubkey, nat>)

  function Balance(lamports: map<Pubkey, nat>, k: Pubkey): nat {
    if k in lamports then lamports[k] else 0
  }

  /** The system program's `transfer`: moves `amount` lamports and changes no other balance. */
  function Transfer(lamports: map<Pubkey, nat>, from: Pubkey, to: Pubkey, amount: nat): (r: map<Pubkey, nat>)
    requires Balance(lamports, from) >= amount
    ensures from != to ==> Balance(r, from) == Balance(lamports, from) - amount
    ensures from != to ==> Balance(r, to) == Balance(lamports, to) + amount
    ensures forall k :: k != from && k != to ==> Balance(r, k) == Balance(lamports, k)
    ensures Balance(r, from) + Balance(r, to) == Balance(lamports, from) + Balance(lamports, to) || from == to
    ensures from == to ==> Balance(r, from) == Balance(lamports, from)
  {
    var debited := lamports[from := Balance(lamports, from) - amount];
    debited[to := Balance(debited, to) + amount]
  }

  /**
   * `AccountsClose::close`: all the item's lamports go to `dest` and the item account
   * stops being one of the program's accounts.
   */
  function Close(st: State, item: Pubkey, dest: Pubkey): (r: State)
    ensures r.lists == st.lists
    ensures r.items == st.items - {item}
    ensures item != dest ==> Balance(r.lamports, item) == 0
    ensures item != dest ==> Balance(r.lamports, dest) == Balance(st.lamports, dest) + Balance(st.lamports, item)
    ensures forall k :: k != item && k != dest ==> Balance(r.lamports, k) == Balance(st.lamports, k)
  {
    State(st.lists, st.items - {item}, Transfer(st.lamports, item, dest, Balance(st.lamports, item)))
  }

  /** An `init` account address is taken when it already holds a program account or lamports. */
  predicate InUse(st: State, k: Pubkey) {
    k in st.lists || k in st.items || Balance(st.lamports, k) > 0
  }

  /** `list.lines.retain(|key| key != item)`: drops every occurrence of `k`, keeping the order of the rest. */
  function RemoveAll(ks: seq<Pubkey>, k: Pubkey): (r: seq<Pubkey>)
    ensures forall x :: x in r <==> x in ks && x != k
    ensures forall x :: x != k ==> multiset(r)[x] == multiset(ks)[x]
    ensures |r| <= |ks|
    ensures k in ks ==> |r| < |ks|
  {
    if |ks| == 0 then []
    else
      assert ks == [ks[0]] + ks[1..];
      if ks[0] == k then RemoveAll(ks[1..], k) else [ks[0]] + RemoveAll(ks[1..], k)
  }

  // ---------------------------------------------------------------------------
  // Account sizes

  /**
   * `MAX_PERMITTED_DATA_INCREASE`: the Solana runtime lets one instruction grow account data,
   * and so create an account, by at most 10 KiB.
   */
  const MaxPermittedDataIncrease: nat := 10 * 1024

  /** `TodoList::space(name, capacity)`: the data size a list account is created with. */
  function ListSpace(name: Str, capacity: u16): nat {
    8 + 32 + 2 + 4 + |name| + 4 + capacity * 32
  }

  /** `ListItem::space(name)`: the data size an item account is created with. */
  function ItemSpace(name: Str): nat {
    8 + 32 + 1 + 1 + 4 + |name|
  }

  /** The Borsh bytes Anchor stores for a list after its discriminator, fields in declaration order. */
  function EncodeList(l: TodoList): seq<byte>
    requires |l.lines| < 0x1_0000_0000
  {
    l.listOwner + EncodeU16(l.capacity) + EncodeString(l.name) + EncodeKeys(l.lines)
  }

  /** The Borsh bytes Anchor stores for an item after its discriminator. */
  function EncodeItem(i: ListItem): seq<byte> {
    i.creator + EncodeBool(i.creatorFinished) + EncodeBool(i.listOwnerFinished) + EncodeString(i.name)
  }

  // ---------------------------------------------------------------------------
  // Instructions

  /**
   * `new_list`: creates the list account at `listKey`, paid for by `user` (who pays `rent`,
   * the rent-exempt minimum for `ListSpace(name, capacity)`), owned by `user` and empty.
   * After the system program has created the account, the runtime refuses it when its
   * data exceeds `MaxPermittedDataIncrease`.
   */
  function NewList(st: State, listKey: Pubkey, user: Pubkey, name: Str, capacity: u16, rent: nat): (r: Result<State, Error>)
    ensures r.Ok? <==>
      !InUse(st, listKey) && Balance(st.lamports, user) >= rent && ListSpace(name, capacity) <= MaxPermittedDataIncrease
    ensures r == Err(InvalidRealloc) <==>
      !InUse(st, listKey) && Balance(st.lamports, user) >= rent && ListSpace(name, capacity) > MaxPermittedDataIncrease
    ensures r.Ok? ==>
      && r.value.lists == st.lists[listKey := TodoList(user, capacity, name, [])]
      && r.value.items == st.items
      && (user != listKey ==>
            && Balance(r.value.lamports, listKey) == rent
            && Balance(r.value.lamports, user) == Balance(st.lamports, user) - rent)
      && (forall k :: k != user && k != listKey ==> Balance(r.value.lamports, k) == Balance(st.lamports, k))
  {
    if InUse(st, listKey) then Err(AccountInUse)
    else if Balance(st.lamports, user) < rent then Err(InsufficientFunds)
    else if ListSpace(name, capacity) > MaxPermittedDataIncrease then Err(InvalidRealloc)
    else Ok(State(st.lists[listKey := TodoList(user, capacity, name, [])], st.items, Transfer(st.lamports, user, listKey, rent)))
  }

  /**
   * `add`: creates the item account at `itemKey` (its creation deposits `rent`, paid by
   * `user`), appends the item to the list unless the list is full, records the creator
   * and name, and tops the item up from `user` so that it holds exactly `bounty`
   * lamports; a bounty below what the account already holds is refused.
   */
  function Add(st: State, listKey: Pubkey, itemKey: Pubkey, user: Pubkey, name: Str, bounty: u64, rent: nat): (r: Result<State, Error>)
    ensures user != itemKey ==>
      (r.Ok? <==>
        && listKey in st.lists && !InUse(st, itemKey) && Balance(st.lamports, user) >= rent
        && |st.lists[listKey].lines| < st.lists[listKey].capacity
        && bounty >= rent && Balance(st.lamports, user) >= bounty)
    ensures r == Err(Program(ListFull)) <==>
      && listKey in st.lists && !InUse(st, itemKey) && Balance(st.lamports, user) >= rent
      && |st.lists[listKey].lines| >= st.lists[listKey].capacity
    ensures r == Err(Program(BountyTooSmall)) <==>
      && listKey in st.lists && !InUse(st, itemKey) && Balance(st.lamports, user) >= rent
      && |st.lists[listKey].lines| < st.lists[listKey].capacity
      && bounty < rent
    ensures r.Ok? ==>
      && listKey in st.lists
      && var list := st.lists[listKey];
      && |list.lines| < list.capacity
      && r.value.lists == st.lists[listKey := list.(lines := list.lines + [itemKey])]
      && r.value.items == st.items[itemKey := ListItem(user, false, false, name)]
      && (user != itemKey ==>
            && Balance(r.value.lamports, itemKey) == bounty
            && Balance(r.value.lamports, user) == Balance(st.lamports, user) - bounty)
      && (forall k :: k != user && k != itemKey ==> Balance(r.value.lamports, k) == Balance(st.lamports, k))
  {
    if listKey !in st.lists then Err(AccountNotInitialized)
    else if InUse(st, itemKey) then Err(AccountInUse)
    else if Balance(st.lamports, user) < rent then Err(InsufficientFunds)
    else
      // Anchor's `init`: the new account holds zeroed data and its rent deposit.
      var funded := Transfer(st.lamports, user, itemKey, rent);
      var list := st.lists[listKey];
      if |list.lines| >= list.capacity then Err(Program(ListFull))
      else
        var accountLamports := Balance(funded, itemKey);
        if bounty < accountLamports then Err(Program(BountyTooSmall))
        else
          var amount := bounty - accountLamports;
          if amount > 0 && Balance(funded, user) < amount then Err(InsufficientFunds)
          else
            var paid := if amount > 0 then Transfer(funded, user, itemKey, amount) else funded;
            Ok(State(
              st.lists[listKey := list.(lines := list.lines + [itemKey])],
              st.items[itemKey := ListItem(user, false, false, name)],
              paid))
  }

  /**
   * `cancel`: after the account check that `itemCreator` is the item's creator, lets the
   * list owner or the item's creator withdraw an item of the list: the item account is
   * closed to its creator, refunding the bounty, and the item leaves the list.
   */
  function Cancel(st: State, listKey: Pubkey, itemKey: Pubkey, itemCreator: Pubkey, user: Pubkey): (r: Result<State, Error>)
    ensures r.Ok? <==>
      && listKey in st.lists && itemKey in st.items
      && itemCreator == st.items[itemKey].creator
      && (user == st.lists[listKey].listOwner || user == st.items[itemKey].creator)
      && itemKey in st.lists[listKey].lines
    ensures listKey in st.lists && itemKey in st.items ==>
      var list := st.lists[listKey];
      var item := st.items[itemKey];
      && (r == Err(Program(WrongItemCreator)) <==> itemCreator != item.creator)
      && (r == Err(Program(CancelPermissions)) <==> itemCreator == item.creator && user != list.listOwner && user != item.creator)
      && (r == Err(Program(ItemNotFound)) <==> itemCreator == item.creator && (user == list.listOwner || user == item.creator) && itemKey !in list.lines)
    ensures r.Ok? ==>
      && listKey in st.lists && itemKey in st.items
      && var list := st.lists[listKey];
      && itemKey in list.lines
      && (user == list.listOwner || user == st.items[itemKey].creator)
      && r.value.lists == st.lists[listKey := list.(lines := RemoveAll(list.lines, itemKey))]
      && r.value.items == st.items - {itemKey}
      && (itemKey != itemCreator ==>
            && Balance(r.value.lamports, itemKey) == 0
            && Balance(r.value.lamports, itemCreator) == Balance(st.lamports, itemCreator) + Balance(st.lamports, itemKey))
      && (forall k :: k != itemKey && k != itemCreator ==> Balance(r.value.lamports, k) == Balance(st.lamports, k))
  {
    if listKey !in st.lists || itemKey !in st.items then Err(AccountNotInitialized)
    else
      var list := st.lists[listKey];
      var item := st.items[itemKey];
      if itemCreator != item.creator then Err(Program(WrongItemCreator))
      else if list.listOwner != user && item.creator != user then Err(Program(CancelPermissions))
      else if itemKey !in list.lines then Err(Program(ItemNotFound))
      else
        var closed := Close(st, itemKey, itemCreator);
        Ok(closed.(lists := st.lists[listKey := list.(lines := RemoveAll(list.lines, itemKey))]))
  }

  /**
   * `finish`: after the account check that `listOwner` is the list's owner, records that
   * the item's creator (checked first) or the list owner considers the item done. Once
   * both flags are set the item leaves the list and its account, bounty included, is
   * closed to the list owner.
   */
  function Finish(st: State, listKey: Pubkey, itemKey: Pubkey, listOwner: Pubkey, user: Pubkey): (r: Result<State, Error>)
    ensures r.Ok? <==>
      && listKey in st.lists && itemKey in st.items
      && listOwner == st.lists[listKey].listOwner
      && itemKey in st.lists[listKey].lines
      && (user == st.items[itemKey].creator || user == st.lists[listKey].listOwner)
    ensures listKey in st.lists && itemKey in st.items ==>
      var list := st.lists[listKey];
      var item := st.items[itemKey];
      && (r == Err(Program(WrongListOwner)) <==> listOwner != list.listOwner)
      && (r == Err(Program(ItemNotFound)) <==> listOwner == list.listOwner && itemKey !in list.lines)
      && (r == Err(Program(FinishPermissions)) <==>
            listOwner == list.listOwner && itemKey in list.lines && user != item.creator && user != list.listOwner)
    ensures r.Ok? ==>
      && listKey in st.lists && itemKey in st.items
      && var list := st.lists[listKey];
      && var item := st.items[itemKey];
      && var marked := if user == item.creator then item.(creatorFinished := true) else item.(listOwnerFinished := true);
      && itemKey in list.lines
      && (user == item.creator || user == list.listOwner)
      && (marked.creatorFinished && marked.listOwnerFinished ==>
            && r.value.lists == st.lists[listKey := list.(lines := RemoveAll(list.lines, itemKey))]
            && r.value.items == st.items - {itemKey}
            && (itemKey != listOwner ==>
                  && Balance(r.value.lamports, itemKey) == 0
                  && Balance(r.value.lamports, listOwner) == Balance(st.lamports, listOwner) + Balance(st.lamports, itemKey))
            && (forall k :: k != itemKey && k != listOwner ==> Balance(r.value.lamports, k) == Balance(st.lamports, k)))
      && (!(marked.creatorFinished && marked.listOwnerFinished) ==>
            r.value == st.(items := st.items[itemKey := marked]))
  {
    if listKey !in st.lists || itemKey !in st.items then Err(AccountNotInitialized)
    else
      var list := st.lists[listKey];
      var item := st.items[itemKey];
      if listOwner != list.listOwner then Err(Program(WrongListOwner))
      else if itemKey !in list.lines then Err(Program(ItemNotFound))
      else if item.creator != user && list.listOwner != user then Err(Program(FinishPermissions))
      else
        var marked := if item.creator == user then item.(creatorFinished := true) else item.(listOwnerFinished := true);
        if marked.creatorFinished && marked.listOwnerFinished then
          var closed := Close(st, itemKey, listOwner);
          Ok(closed.(lists := st.lists[listKey := list.(lines := RemoveAll(list.lines, itemKey))]))
        else
          Ok(st.(items := st.items[itemKey := marked]))
  }

  /** One instruction of a transaction, with its accounts and arguments. */
  datatype Instruction =
    | NewListIx(listKey: Pubkey, user: Pubkey, name: Str, capacity: u16, rent: nat)
    | AddIx(listKey: Pubkey, itemKey: Pubkey, user: Pubkey, name: Str, bounty: u64, rent: nat)
    | CancelIx(listKey: Pubkey, itemKey: Pubkey, itemCreator: Pubkey, user: Pubkey)
    | FinishIx(listKey: Pubkey, itemKey: Pubkey, listOwner: Pubkey, user: Pubkey)

  function Process(st: State, ix: Instruction): Result<State, Error> {
    match ix
    case NewListIx(listKey, user, name, capacity, rent) => NewList(st, listKey, user, name, capacity, rent)
    case AddIx(listKey, itemKey, user, name, bounty, rent) => Add(st, listKey, itemKey, user, name, bounty, rent)
    case CancelIx(listKey, itemKey, itemCreator, user) => Cancel(st, listKey, itemKey, itemCreator, user)
    case FinishIx(listKey, itemKey, listOwner, user) => Finish(st, listKey, itemKey, listOwner, user)
  }

  /** The ledger after a transaction and the transaction's result. */
  datatype Receipt = Receipt(state: State, result: Result<(), Error>)

  /** Runs one instruction as a transaction: every change is kept on success and none on failure. */
  function Execute(st: State, ix: Instruction): (r: Receipt)
    ensures Process(st, ix).Err? ==> r.state == st && r.result == Err(Process(st, ix).error)
    ensures Process(st, ix).Ok? ==> r.state == Process(st, ix).value && r.result.Ok?
  {
    match Process(st, ix)
    case Ok(next) => Receipt(next, Ok(()))
    case Err(e) => Receipt(st, Err(e))
  }
}

=== FILE: todo_properties.dfy ===
/** Properties of the `todo` program that relate several instructions or hold of every reachable ledger. */
module TodoProperties {
  import opened Results
  import opened Borsh
  import opened Todo

  // ---------------------------------------------------------------------------
  // `retain`

  /** `retain` works element by element: filtering a concatenation filters each part. */
  lemma {:induction false} RemoveAllDistributes(a: seq<Pubkey>, b: seq<Pubkey>, k: Pubkey)
    ensures RemoveAll(a + b, k) == RemoveAll(a, k) + RemoveAll(b, k)
    decreases |a|
  {
    if |a| > 0 {
      assert (a + b)[0] == a[0] && (a + b)[1..] == a[1..] + b;
      RemoveAllDistributes(a[1..], b, k);
    } else {
      assert a + b == b;
    }
  }

  /** `retain` of a key that does not occur keeps the vector as it is. */
  lemma {:induction false} RemoveAbsentIsIdentity(ks: seq<Pubkey>, k: Pubkey)
    requires k !in ks
    ensures RemoveAll(ks, k) == ks
    decreases |ks|
  {
    if |ks| > 0 {
      assert ks == [ks[0]] + ks[1..];
      RemoveAbsentIsIdentity(ks[1..], k);
    }
  }

  /** Appending a key that was absent and then removing it gives back the original vector. */
  lemma RemoveAfterAppend(ks: seq<Pubkey>, k: Pubkey)
    requires k !in ks
    ensures RemoveAll(ks + [k], k) == ks
  {
    RemoveAllDistributes(ks, [k], k);
    RemoveAbsentIsIdentity(ks, k);
    assert RemoveAll([k], k) == [];
  }

  // ---------------------------------------------------------------------------
  // Account sizes

  /**
   * The largest list `new_list` can create: an unnamed list holds at most 318 keys, and
   * every byte of name costs one byte of that budget.
   */
  lemma ListSizeLimit(name: Str, capacity: u16)
    ensures ListSpace(name, capacity) <= MaxPermittedDataIncrease <==> |name| + 32 * capacity <= 10190
    ensures |name| == 0 ==> (ListSpace(name, capacity) <= MaxPermittedDataIncrease <==> capacity <= 318)
  {
  }

  /**
   * A list's stored bytes fit the account `TodoList::space` allocated exactly when it
   * holds no more keys than its capacity; a full list fills the account to the byte.
   */
  lemma ListFitsItsAccount(l: TodoList)
    requires |l.lines| < 0x1_0000_0000
    ensures DiscriminatorSize + |EncodeList(l)| <= ListSpace(l.name, l.capacity) <==> |l.lines| <= l.capacity
    ensures |l.lines| == l.capacity ==> DiscriminatorSize + |EncodeList(l)| == ListSpace(l.name, l.capacity)
  {
  }

  /** An item's stored bytes fill the account `ListItem::space` allocated for its name exactly. */
  lemma ItemFitsItsAccount(i: ListItem)
    ensures DiscriminatorSize + |EncodeItem(i)| == ItemSpace(i.name)
  {
  }

  // ---------------------------------------------------------------------------
  // Ledger invariant

  /**
   * What every successful transaction keeps: no list holds more keys than its capacity,
   * no address is both a list and an item, every key in a list names a live item account,
   * and no item key occurs in two different lists.
   */
  ghost predicate Inv(st: State) {
    && (forall l :: l in st.lists ==> |st.lists[l].lines| <= st.lists[l].capacity)
    && (forall k :: k in st.lists ==> k !in st.items)
    && (forall l, k :: l in st.lists && k in st.lists[l].lines ==> k in st.items)
    && (forall l1, l2, k :: l1 in st.lists && l2 in st.lists && k in st.lists[l1].lines && k in st.lists[l2].lines ==> l1 == l2)
  }

  /** Closing an item that only `listKey` refers to, while dropping it from that list, keeps `Inv`. */
  lemma RemovingItemKeepsInv(st: State, listKey: Pubkey, itemKey: Pubkey, next: State)
    requires Inv(st) && listKey in st.lists && itemKey in st.lists[listKey].lines
    requires next.items == st.items - {itemKey}
    requires next.lists == st.lists[listKey := st.lists[listKey].(lines := RemoveAll(st.lists[listKey].lines, itemKey))]
    ensures Inv(next)
  {
    forall l, k | l in next.lists && k in next.lists[l].lines
      ensures k in next.items
    {
      if l != listKey {
        assert k != itemKey;
      }
    }
  }

  lemma NewListKeepsInv(st: State, ix: Instruction)
    requires Inv(st) && ix.NewListIx? && Process(st, ix).Ok?
    ensures Inv(Process(st, ix).value)
  {
  }

  lemma AddKeepsInv(st: State, ix: Instruction)
    requires Inv(st) && ix.AddIx? && Process(st, ix).Ok?
    ensures Inv(Process(st, ix).value)
  {
    var next := Process(st, ix).value;
    var item := ix.itemKey;
    assert item !in st.items;
    forall l1, l2, k | l1 in next.lists && l2 in next.lists && k in next.lists[l1].lines && k in next.lists[l2].lines
      ensures l1 == l2
    {
      if k == item {
        assert l1 == ix.listKey && l2 == ix.listKey;
      }
    }
  }

  lemma FinishKeepsInv(st: State, ix: Instruction)
    requires Inv(st) && ix.FinishIx? && Process(st, ix).Ok?
    ensures Inv(Process(st, ix).value)
  {
    var item := st.items[ix.itemKey];
    var marked := if ix.user == item.creator then item.(creatorFinished := true) else item.(listOwnerFinished := true);
    if marked.creatorFinished && marked.listOwnerFinished {
      RemovingItemKeepsInv(st, ix.listKey, ix.itemKey, Process(st, ix).value);
    }
  }

  /** Every transaction, successful or not, leaves a ledger satisfying `Inv`. */
  lemma ExecutePreservesInv(st: State, ix: Instruction)
    requires Inv(st)
    ensures Inv(Execute(st, ix).state)
  {
    if Process(st, ix).Ok? {
      match ix
      case NewListIx(_, _, _, _, _) => NewListKeepsInv(st, ix);
      case AddIx(_, _, _, _, _, _) => AddKeepsInv(st, ix);
      case CancelIx(listKey, itemKey, _, _) =>
        RemovingItemKeepsInv(st, listKey, itemKey, Process(st, ix).value);
      case FinishIx(_, _, _, _) => FinishKeepsInv(st, ix);
    }
  }

  /** Feeds the instructions, one transaction each, in order. */
  function ExecuteAll(st: State, ixs: seq<Instruction>): State
    decreases |ixs|
  {
    if |ixs| == 0 then st else ExecuteAll(Execute(st, ixs[0]).state, ixs[1..])
  }

  /** From any ledger satisfying `Inv` (the empty one does), every list keeps fitting the account allocated for it. */
  lemma {:induction false} ListsAlwaysFit(st: State, ixs: seq<Instruction>, l: Pubkey)
    requires Inv(st)
    ensures Inv(ExecuteAll(st, ixs))
    ensures l in ExecuteAll(st, ixs).lists ==>
      DiscriminatorSize + |EncodeList(ExecuteAll(st, ixs).lists[l])| <= ListSpace(ExecuteAll(st, ixs).lists[l].name, ExecuteAll(st, ixs).lists[l].capacity)
    decreases |ixs|
  {
    if |ixs| > 0 {
      ExecutePreservesInv(st, ixs[0]);
      ListsAlwaysFit(Execute(st, ixs[0]).state, ixs[1..], l);
    } else if l in st.lists {
      ListFitsItsAccount(st.lists[l]);
    }
  }

  // ---------------------------------------------------------------------------
  // Bounties

  /**
   * Cancelling one's own item right after adding it undoes the add: the list and the item
   * accounts are as before, and the creator gets back all they paid, rent included.
   */
  lemma AddThenCancelRestores(st: State, listKey: Pubkey, itemKey: Pubkey, user: Pubkey, name: Str, bounty: u64, rent: nat)
    requires Inv(st) && user != itemKey
    requires Add(st, listKey, itemKey, user, name, bounty, rent).Ok?
    ensures var added := Add(st, listKey, itemKey, user, name, bounty, rent).value;
      var cancelled := Cancel(added, listKey, itemKey, user, user);
      && cancelled.Ok?
      && cancelled.value.lists == st.lists
      && cancelled.value.items == st.items
      && Balance(cancelled.value.lamports, user) == Balance(st.lamports, user)
      && Balance(cancelled.value.lamports, itemKey) == 0
  {
    var list := st.lists[listKey];
    assert itemKey !in st.items;
    assert itemKey !in list.lines;
    var added := Add(st, listKey, itemKey, user, name, bounty, rent).value;
    CancelUndoesAppend(st, added, listKey, itemKey, user);
  }

  /** The second half of `AddThenCancelRestores`, stated over any state the add may have produced. */
  lemma CancelUndoesAppend(st: State, added: State, listKey: Pubkey, itemKey: Pubkey, user: Pubkey)
    requires listKey in st.lists && itemKey !in st.lists[listKey].lines && itemKey !in st.items && user != itemKey
    requires added.lists == st.lists[listKey := st.lists[listKey].(lines := st.lists[listKey].lines + [itemKey])]
    requires itemKey in added.items && added.items[itemKey].creator == user && added.items - {itemKey} == st.items
    requires Balance(added.lamports, user) + Balance(added.lamports, itemKey) == Balance(st.lamports, user)
    ensures var cancelled := Cancel(added, listKey, itemKey, user, user);
      && cancelled.Ok?
      && cancelled.value.lists == st.lists
      && cancelled.value.items == st.items
      && Balance(cancelled.value.lamports, user) == Balance(st.lamports, user)
      && Balance(cancelled.value.lamports, itemKey) == 0
  {
    var list := st.lists[listKey];
    RemoveAfterAppend(list.lines, itemKey);
    assert added.lists[listKey].lines == list.lines + [itemKey];
    assert st.lists[listKey := list] == st.lists;
  }

  /**
   * The two-party handshake: after the first of the creator and the list owner finishes,
   * the item stays in the list with its bounty; after the second, it has left the list
   * and its bounty has gone to the list owner, whichever order they come in.
   */
  lemma FinishHandshake(st: State, listKey: Pubkey, itemKey: Pubkey, creatorFirst: bool)
    requires Inv(st) && listKey in st.lists && itemKey in st.lists[listKey].lines
    requires var owner := st.lists[listKey].listOwner;
      owner != st.items[itemKey].creator && owner != itemKey
    requires !st.items[itemKey].creatorFinished && !st.items[itemKey].listOwnerFinished
    ensures var owner := st.lists[listKey].listOwner;
      var creator := st.items[itemKey].creator;
      var first := Finish(st, listKey, itemKey, owner, if creatorFirst then creator else owner);
      && first.Ok?
      && first.value.lists == st.lists
      && Balance(first.value.lamports, itemKey) == Balance(st.lamports, itemKey)
      && var second := Finish(first.value, listKey, itemKey, owner, if creatorFirst then owner else creator);
      && second.Ok?
      && itemKey !in second.value.items
      && itemKey !in second.value.lists[listKey].lines
      && Balance(second.value.lamports, owner) == Balance(st.lamports, owner) + Balance(st.lamports, itemKey)
  {
    var owner := st.lists[listKey].listOwner;
    var creator := st.items[itemKey].creator;
    var first := Finish(st, listKey, itemKey, owner, if creatorFirst then creator else owner);
    assert first.value.items[itemKey].creatorFinished == creatorFirst;
    assert first.value.items[itemKey].listOwnerFinished == !creatorFirst;
  }

  /**
   * As written, `finish` checks the creator first, so on an item the list owner created
   * the owner's flag is never set: such an item is never completed by `finish` (its
   * bounty can still be recovered through `cancel`).
   */
  lemma OwnersOwnItemNeverCompletes(st: State, listKey: Pubkey, itemKey: Pubkey, listOwner: Pubkey, user: Pubkey)
    requires listKey in st.lists && itemKey in st.items
    requires st.items[itemKey].creator == st.lists[listKey].listOwner && !st.items[itemKey].listOwnerFinished
    ensures var r := Finish(st, listKey, itemKey, listOwner, user);
      r.Ok? ==> itemKey in r.value.items && !r.value.items[itemKey].listOwnerFinished && r.value.lists == st.lists
  {
  }
}

=== FILE: wallet_properties.dfy ===
/**
 * Properties of the wallet connection store that relate several operations or hold of
 * every reachable store.
 */
module WalletProperties {
  import opened Results
  import opened Writable
  import opened Wallets

  /**
   * What holds of every store `createWalletStore` can reach: the getter agrees with the
   * last publication, `publicKey` is never set, a wallet is shown exactly when an adapter
   * is current, the signing wrappers mirror that adapter's capabilities (all undefined
   * without one), the state is `NotReady` without an adapter, and the adapter's identity
   * was handed out before.
   */
  ghost predicate Inv(s: Store) {
    && s.view.Valid()
    && s.Current().publicKey == None
    && (s.adapter.Some? <==> s.Current().wallet.Some?)
    && (s.adapter.Some? ==>
          && s.Current().wallet == Some(s.adapter.value.wallet)
          && s.Current().signers == s.adapter.value.wallet.caps
          && s.adapter.value.instance < s.nextInstance)
    && (s.adapter.None? ==> s.Current().signers == NoCaps && s.Current().state == NotReady)
  }

  lemma ConnectPreservesInv(s: Store)
    requires Inv(s)
    ensures Inv(Connect(s).store)
  {
  }

  lemma SelectPreservesInv(s: Store, name: Option<string>, previous: AdapterCall)
    requires Inv(s)
    ensures Inv(Select(s, name, previous).store)
  {
    var target := Lookup(s, name);
    if !(Truthy(name) && name.value !in s.registry) && !(target.Some? && s.Current().wallet == target) {
      SelectSwitches(s, name, previous);
    }
  }

  lemma ConnectSettledPreservesInv(s: Store, result: AdapterCall)
    requires Inv(s)
    ensures Inv(ConnectSettled(s, result).store)
  {
  }

  lemma DisconnectPreservesInv(s: Store, result: AdapterCall)
    requires Inv(s)
    ensures Inv(Disconnect(s, result).store)
  {
  }

  lemma OnEventPreservesInv(s: Store, instance: nat, ev: AdapterEvent)
    requires Inv(s)
    ensures Inv(OnEvent(s, instance, ev).store)
  {
  }

  lemma ApplyPreservesInv(s: Store, input: Input)
    requires Inv(s)
    ensures Inv(Apply(s, input).store)
  {
    match input
    case SelectCall(name, previous) => SelectPreservesInv(s, name, previous);
    case ConnectCall => ConnectPreservesInv(s);
    case ConnectSettles(result) => ConnectSettledPreservesInv(s, result);
    case DisconnectCall(result) => DisconnectPreservesInv(s, result);
    case SendCall(result) =>
    case SignCall(kind, result) =>
    case Event(instance, ev) => OnEventPreservesInv(s, instance, ev);
  }

  /** Every step, including the connection the autoconnect subscriber may start, keeps `Inv`. */
  lemma StepPreservesInv(s: Store, input: Input)
    requires Inv(s)
    ensures Inv(Step(s, input).store)
  {
    ApplyPreservesInv(s, input);
    ConnectPreservesInv(Apply(s, input).store);
  }

  /** A freshly created store satisfies `Inv`, whether or not it resumes a saved wallet. */
  lemma CreateEstablishesInv(wallets: seq<Wallet>, browser: bool, autoconnect: bool, saved: Option<string>)
    ensures Inv(Create(wallets, browser, autoconnect, saved).store)
  {
    var s0 := Store(Registry(wallets), browser, autoconnect, None, NewCell(InitialSnapshot), 0);
    assert Inv(s0);
    if browser && Truthy(saved) {
      StepPreservesInv(s0, SelectCall(saved, Resolved(0)));
    }
  }

  /** Feeds the inputs to `Step` one after the other. */
  function Run(s: Store, inputs: seq<Input>): Store
    decreases |inputs|
  {
    if |inputs| == 0 then s else Run(Step(s, inputs[0]).store, inputs[1..])
  }

  /** `Inv` holds after any run of inputs, in any order the host delivers them. */
  lemma {:induction false} RunPreservesInv(s: Store, inputs: seq<Input>)
    requires Inv(s)
    ensures Inv(Run(s, inputs))
    decreases |inputs|
  {
    if |inputs| > 0 {
      StepPreservesInv(s, inputs[0]);
      RunPreservesInv(Step(s, inputs[0]).store, inputs[1..]);
    }
  }

  /** In a reachable store a signing wrapper is defined exactly when the current adapter has the method. */
  lemma SignersMirrorAdapter(s: Store, k: SignKind)
    requires Inv(s)
    ensures s.Current().signers.Has(k) <==> s.adapter.Some? && s.adapter.value.wallet.caps.Has(k)
    ensures s.Current().wallet.None? ==> !s.Current().signers.Has(k)
  {
  }

  /**
   * A wrapper taken from the current snapshot, called while connected, always reaches
   * the adapter and passes its answer on; in any other state it rejects without calling.
   */
  lemma HeldWrapperReachesAdapter(s: Store, k: SignKind, result: AdapterCall)
    requires Inv(s) && s.Current().signers.Has(k)
    ensures s.Current().state == Connected ==>
      && Sign(s, k, result).effects == [AdapterSign(s.adapter.value.instance, k)]
      && Sign(s, k, result).reply == Forward(result)
    ensures s.Current().state != Connected ==>
      Sign(s, k, result).reply == Err(WalletNotConnected) && Sign(s, k, result).effects == []
  {
  }

  /** Only a selected, connected store ever asks its adapter to send or to sign. */
  lemma GatedCallsNeedConnection(s: Store, input: Input)
    requires Inv(s)
    requires input.SendCall? || input.SignCall?
    ensures !NoAdapterCall(Apply(s, input).effects) ==> s.Current().state == Connected && s.adapter.Some?
    ensures Apply(s, input).store == s
  {
  }

  /** An adapter identity handed out earlier whose events the store no longer listens to. */
  ghost predicate Silent(s: Store, instance: nat) {
    instance < s.nextInstance && !Listens(s, instance)
  }

  /** No input, nor the connection autoconnect may start, makes the store listen to a silenced adapter again. */
  lemma StepKeepsSilent(s: Store, input: Input, instance: nat)
    requires Silent(s, instance)
    ensures Silent(Step(s, input).store, instance)
  {
    match input
    case SelectCall(name, previous) =>
      var target := Lookup(s, name);
      if !(Truthy(name) && name.value !in s.registry) && !(target.Some? && s.Current().wallet == target) {
        SelectSwitches(s, name, previous);
      }
    case _ =>
  }

  lemma {:induction false} RunKeepsSilent(s: Store, inputs: seq<Input>, instance: nat)
    requires Silent(s, instance)
    ensures Silent(Run(s, inputs), instance)
    decreases |inputs|
  {
    if |inputs| > 0 {
      StepKeepsSilent(s, inputs[0], instance);
      RunKeepsSilent(Step(s, inputs[0]).store, inputs[1..], instance);
    }
  }

  /**
   * Once `select` has replaced adapter `a` (or failed while tearing it down), nothing `a`
   * emits changes the store, after any later run of inputs either.
   */
  lemma ReplacedAdapterIsSilenced(s: Store, name: Option<string>, previous: AdapterCall, inputs: seq<Input>, ev: AdapterEvent)
    requires Inv(s) && s.adapter.Some?
    requires Select(s, name, previous).store.adapter != s.adapter
    ensures var t := Run(s, [SelectCall(name, previous)] + inputs);
      OnEvent(t, s.adapter.value.instance, ev) == Outcome(t, [], Ok(Unit))
  {
    var instance := s.adapter.value.instance;
    var target := Lookup(s, name);
    SelectIsQuiet(s, name, previous);
    assert Apply(s, SelectCall(name, previous)) == Select(s, name, previous);
    var t0 := Step(s, SelectCall(name, previous)).store;
    assert t0 == Select(s, name, previous).store;
    SelectSwitches(s, name, previous);
    assert Silent(t0, instance);
    RunKeepsSilent(t0, inputs, instance);
    assert ([SelectCall(name, previous)] + inputs)[1..] == inputs;
  }

  /**
   * `connect()` has no guard against a connection already in progress: from `Connecting`
   * it publishes `Connecting` again and makes a second adapter `connect` call.
   */
  lemma ConnectWhileConnectingCallsAgain(s: Store)
    requires Inv(s) && s.Current().state == Connecting
    ensures var o := Connect(s);
      && o.reply == Ok(Unit)
      && o.effects == [AdapterConnect(s.adapter.value.instance)]
      && o.store.Current() == s.Current()
      && |o.store.view.published| == |s.view.published| + 1
  {
  }

  /** `select(null)`, when no wallet is registered as "null" and teardown succeeds, deselects. */
  lemma DeselectClearsSnapshot(s: Store, previous: AdapterCall)
    requires Inv(s) && "null" !in s.registry && previous.Resolved?
    ensures var o := Select(s, None, previous);
      && o.reply == Ok(Unit)
      && o.store.adapter.None?
      && o.store.Current().wallet.None?
      && o.store.Current().state == NotReady
      && o.store.Current().signers == NoCaps
  {
    var o := SwitchAdapter(s, None, previous);
    assert Select(s, None, previous).store == o.store;
  }

  /**
   * JavaScript reads `wallets[null]` as `wallets["null"]`: if a wallet is registered under
   * the name "null", `select(null)` switches to it instead of deselecting.
   */
  lemma DeselectReadsNullName(s: Store, previous: AdapterCall)
    requires Inv(s) && "null" in s.registry && s.Current().wallet != Some(s.registry["null"])
    requires previous.Resolved?
    ensures Select(s, None, previous).store.Current().wallet == Some(s.registry["null"])
  {
    var o := SwitchAdapter(s, Lookup(s, None), previous);
    assert Select(s, None, previous).store == o.store;
  }

  /** With autoconnect, a `ready` event from the current adapter starts a connection at once. */
  lemma AutoconnectOnReady(s: Store, instance: nat)
    requires Inv(s) && s.autoconnect && Listens(s, instance)
    ensures var o := Step(s, Event(instance, ReadyEvent));
      && o.store.Current().state == Connecting
      && o.effects == [AdapterConnect(instance)]
  {
    var a := Apply(s, Event(instance, ReadyEvent));
    var p := a.store.view.published;
    assert p[|p| - 1].state == Ready;
    assert PublishedReady(p, |s.view.published|);
  }

  /** Without autoconnect the same event only publishes `Ready`. */
  lemma NoAutoconnectOnReady(s: Store, instance: nat)
    requires !s.autoconnect && Listens(s, instance)
    ensures var o := Step(s, Event(instance, ReadyEvent));
      && o.store.Current().state == Ready
      && o.effects == []
  {
  }

  /**
   * With autoconnect, a failed connection attempt that reverts the state to `Ready` is
   * retried immediately, while the failure still reaches the original caller.
   */
  lemma AutoconnectRetriesFailedConnect(s: Store, code: nat)
    requires Inv(s) && s.autoconnect && s.Current().state == Connecting
    ensures var o := Step(s, ConnectSettles(Rejected(code)));
      && o.reply == Err(AdapterFailure(code))
      && o.store.Current().state == Connecting
      && o.effects == [AdapterConnect(s.adapter.value.instance)]
  {
    var a := Apply(s, ConnectSettles(Rejected(code)));
    var p := a.store.view.published;
    assert p[|p| - 1].state == Ready;
    assert PublishedReady(p, |s.view.published|);
  }

  /**
   * The autoconnect subscriber reacts only to `Ready`: a step that publishes only
   * `NotReady`, `Connecting` or `Connected` snapshots makes no extra call.
   */
  lemma AutoconnectIgnoresOtherStates(s: Store, input: Input)
    requires Inv(s)
    requires forall i :: |s.view.published| <= i < |Apply(s, input).store.view.published| ==>
      Apply(s, input).store.view.published[i].state != Ready
    ensures Step(s, input) == Apply(s, input)
  {
  }

  const Phantom: Wallet := Wallet(1, "Phantom", "https://phantom.app", Caps(true, true, true))
  const Solflare: Wallet := Wallet(2, "Solflare", "https://solflare.com", Caps(true, true, false))

  /**
   * The end-to-end scenario: select Phantom, the adapter becomes ready, connect, the
   * adapter connects, a transaction is sent, then a disconnect brings the state back to
   * `Ready`.
   */
  lemma PhantomScenario(sig: nat)
    ensures var s0 := Create([Phantom, Solflare], true, false, None).store;
      var s1 := Step(s0, SelectCall(Some("Phantom"), Resolved(0))).store;
      var s2 := Step(s1, Event(0, ReadyEvent)).store;
      var s3 := Step(s2, ConnectCall).store;
      var s4 := Step(s3, Event(0, ConnectEvent)).store;
      var sent := Step(s4, SendCall(Resolved(sig)));
      var s5 := Step(sent.store, DisconnectCall(Resolved(0))).store;
      var s6 := Step(s5, Event(0, DisconnectEvent)).store;
      && s1.Current().state == NotReady && s1.Current().wallet == Some(Phantom)
      && s2.Current().state == Ready
      && s3.Current().state == Connecting
      && s4.Current().state == Connected
      && sent.reply == Ok(Returned(sig)) && sent.effects == [AdapterSend(0)]
      && s6.Current().state == Ready
  {
    var s1 := Step(Create([Phantom, Solflare], true, false, None).store, SelectCall(Some("Phantom"), Resolved(0))).store;
    ScenarioOpens();
    ScenarioConnects(s1);
    var s4 := Step(Step(Step(s1, Event(0, ReadyEvent)).store, ConnectCall).store, Event(0, ConnectEvent)).store;
    ScenarioSendsAndLeaves(s4, sig);
  }

  /** The scenario's first step: Phantom is selected and its adapter, the first one built, is subscribed. */
  lemma ScenarioOpens()
    ensures var s0 := Create([Phantom, Solflare], true, false, None).store;
      var s1 := Step(s0, SelectCall(Some("Phantom"), Resolved(0))).store;
      && s1.Current().state == NotReady && s1.Current().wallet == Some(Phantom)
      && s1.adapter == Some(Adapter(0, Phantom, true)) && !s1.autoconnect && s1.view.Valid()
  {
    assert [Phantom, Solflare][..1] == [Phantom];
    assert [Phantom][..0] == [];
    assert Registry([Phantom]) == map["Phantom" := Phantom];
    var reg := Registry([Phantom, Solflare]);
    assert reg == Registry([Phantom])["Solflare" := Solflare];
    assert reg == map["Phantom" := Phantom, "Solflare" := Solflare];
    var s0 := Create([Phantom, Solflare], true, false, None).store;
    assert s0.adapter.None? && s0.Current() == InitialSnapshot && s0.nextInstance == 0;
    var s1 := Step(s0, SelectCall(Some("Phantom"), Resolved(0))).store;
    assert s1.adapter == Some(Adapter(0, Phantom, true));
  }

  /** The adapter reports ready, the caller connects, and the adapter reports the connection. */
  lemma ScenarioConnects(s1: Store)
    requires s1.adapter == Some(Adapter(0, Phantom, true)) && !s1.autoconnect && s1.view.Valid()
    requires s1.Current().wallet == Some(Phantom)
    ensures var s2 := Step(s1, Event(0, ReadyEvent)).store;
      var s3 := Step(s2, ConnectCall).store;
      var s4 := Step(s3, Event(0, ConnectEvent)).store;
      && s2.Current().state == Ready
      && s3.Current().state == Connecting
      && s4.Current().state == Connected
      && s4.adapter == s1.adapter && !s4.autoconnect && s4.view.Valid()
  {
    var s2 := Step(s1, Event(0, ReadyEvent)).store;
    assert s2.adapter == s1.adapter && s2.Current().state == Ready;
    var s3 := Step(s2, ConnectCall).store;
    assert s3.adapter == s1.adapter && s3.Current().state == Connecting;
  }

  /** While connected a transaction is sent through the adapter; a disconnect then brings the state back to `Ready`. */
  lemma ScenarioSendsAndLeaves(s4: Store, sig: nat)
    requires s4.adapter == Some(Adapter(0, Phantom, true)) && !s4.autoconnect && s4.view.Valid()
    requires s4.Current().state == Connected
    ensures var sent := Step(s4, SendCall(Resolved(sig)));
      var s5 := Step(sent.store, DisconnectCall(Resolved(0))).store;
      var s6 := Step(s5, Event(0, DisconnectEvent)).store;
      && sent.reply == Ok(Returned(sig)) && sent.effects == [AdapterSend(0)]
      && s6.Current().state == Ready
  {
    var sent := Step(s4, SendCall(Resolved(sig)));
    assert sent.store == s4;
    var s5 := Step(sent.store, DisconnectCall(Resolved(0))).store;
    assert s5 == s4;
  }
}

=== FILE: wallets.dfy ===
/**
 * The wallet connection store of the Svelte application (`createWalletStore`).
 *
 * The store mediates between the application and at most one wallet adapter at a time.
 * Every operation is a pure function from the store to an `Outcome`: the next store,
 * the calls the store makes on the outside world (`Effect`s, in order) and the value
 * or error the caller's promise settles with. What the outside world answers (the
 * result of an adapter call, the events an adapter emits) is an explicit input, so the
 * asynchronous JavaScript code becomes a sequential state machine (`Step`).
 */
module Wallets {
  import opened Results
  import opened Writable

  /** `WalletConnectionState`. */
  datatype ConnectionState = NotReady | Ready | Connecting | Connected

  /** The three optional signing methods an adapter object may carry. */
  datatype SignKind = SignTransaction | SignAllTransactions | SignMessage

  /** Which optional signing methods an adapter object has, as detected when it becomes current. */
  datatype Caps = Caps(signTransaction: bool, signAllTransactions: bool, signMessage: bool) {
    predicate Has(k: SignKind) {
      match k
      case SignTransaction => signTransaction
      case SignAllTransactions => signAllTransactions
      case SignMessage => signMessage
    }
  }

  const NoCaps: Caps := Caps(false, false, false)

  /**
   * A configured wallet. `id` stands for the object's identity (the source compares
   * wallets with `===`); `caps` are the capabilities of the adapters its factory builds.
   */
  datatype Wallet = Wallet(id: nat, name: string, url: string, caps: Caps)

  /**
   * The live adapter object of the selected wallet. `instance` identifies the object
   * among all adapters ever built; `listening` is false once the store has removed its
   * four event handlers from it.
   */
  datatype Adapter = Adapter(instance: nat, wallet: Wallet, listening: bool)

  /**
   * The published `WalletStore` value. The bound operations are the same functions in every
   * snapshot and are not represented; `signers` says which of the three optional signing
   * wrappers are defined (not `undefined`).
   */
  datatype Snapshot = Snapshot(wallet: Option<Wallet>, publicKey: Option<string>, state: ConnectionState, signers: Caps)

  const InitialSnapshot: Snapshot := Snapshot(None, None, NotReady, NoCaps)

  /**
   * The closure state of one `createWalletStore` call. `browser` says whether `window`
   * exists; `autoconnect` whether the autoconnect subscriber is installed; `nextInstance`
   * is the identity the next adapter built will get.
   */
  datatype Store = Store(
    registry: map<string, Wallet>,
    browser: bool,
    autoconnect: bool,
    adapter: Option<Adapter>,
    view: Cell<Snapshot>,
    nextInstance: nat)
  {
    /** `currentWallet()`: the snapshot last written. */
    function Current(): Snapshot {
      view.Get()
    }
  }

  /** A call the store makes on the outside world. */
  datatype Effect =
    | Persist(name: string)                        // the wallet name written to local storage
    | CreateAdapter(instance: nat, walletId: nat)  // the wallet's factory builds an adapter
    | Subscribe(instance: nat)                     // handlers attached for the four adapter events
    | Unsubscribe(instance: nat)                   // the same four handlers detached
    | AdapterConnect(instance: nat)
    | AdapterDisconnect(instance: nat)
    | AdapterSend(instance: nat)
    | AdapterSign(instance: nat, kind: SignKind)
    | OpenUrl(url: string)                         // the install page opened in a new tab
    | ReportError(code: nat)                       // the configured error handler called
  {
    /** The effect is a method call on an adapter object that asks the wallet to act. */
    predicate IsAdapterCall() {
      AdapterConnect? || AdapterDisconnect? || AdapterSend? || AdapterSign?
    }
  }

  /** Why a caller's promise rejects. */
  datatype WalletError =
    | WalletNotFound(name: string)
    | NoWalletSelected
    | WalletNotReady
    | WalletNotConnected
    | ScriptError          // a TypeError or ReferenceError raised by the script itself
    | AdapterFailure(code: nat)

  /** How an adapter's promise settles; `value` is an opaque signature or signed payload. */
  datatype AdapterCall = Resolved(value: nat) | Rejected(code: nat)

  /** What a caller's promise resolves to: nothing, or a value passed on from the adapter. */
  datatype Value = Unit | Returned(v: nat)

  datatype Outcome = Outcome(store: Store, effects: seq<Effect>, reply: Result<Value, WalletError>)

  /** The events an adapter emits. */
  datatype AdapterEvent = ReadyEvent | ConnectEvent | DisconnectEvent | ErrorEvent(code: nat)

  /** No effect in `es` is a call on an adapter. */
  predicate NoAdapterCall(es: seq<Effect>) {
    forall e :: e in es ==> !e.IsAdapterCall()
  }

  // ---------------------------------------------------------------------------
  // Registry

  /** `w` is the last wallet of `ws` named `n`. */
  ghost predicate LastNamed(ws: seq<Wallet>, n: string, w: Wallet) {
    exists i :: 0 <= i < |ws| && ws[i] == w && w.name == n && NoneNamedAfter(ws, i, n)
  }

  ghost predicate NoneNamedAfter(ws: seq<Wallet>, i: int, n: string) {
    forall j :: 0 <= j < |ws| && i < j ==> ws[j].name != n
  }

  /**
   * `Object.fromEntries(wallets.map(w => [w.name, w]))`: every configured name is a key,
   * and a name configured twice maps to its last wallet.
   */
  function Registry(ws: seq<Wallet>): (r: map<string, Wallet>)
    ensures forall i :: 0 <= i < |ws| ==> ws[i].name in r
    ensures forall n :: n in r ==> LastNamed(ws, n, r[n])
    decreases |ws|
  {
    if |ws| == 0 then map[]
    else
      var prev := Registry(ws[..|ws| - 1]);
      RegistryExtends(ws, prev);
      prev[ws[|ws| - 1].name := ws[|ws| - 1]]
  }

  /** The induction step of `Registry`: adding the last wallet keeps the "last one wins" reading. */
  lemma RegistryExtends(ws: seq<Wallet>, prev: map<string, Wallet>)
    requires |ws| > 0
    requires forall i :: 0 <= i < |ws| - 1 ==> ws[i].name in prev
    requires forall n :: n in prev ==> LastNamed(ws[..|ws| - 1], n, prev[n])
    ensures var r := prev[ws[|ws| - 1].name := ws[|ws| - 1]];
      && (forall i :: 0 <= i < |ws| ==> ws[i].name in r)
      && (forall n :: n in r ==> LastNamed(ws, n, r[n]))
  {
    var front := ws[..|ws| - 1];
    var last := ws[|ws| - 1];
    var r := prev[last.name := last];
    forall n | n in r
      ensures LastNamed(ws, n, r[n])
    {
      if n == last.name {
        assert ws[|ws| - 1] == r[n] && NoneNamedAfter(ws, |ws| - 1, n);
      } else {
        var i :| 0 <= i < |front| && front[i] == prev[n] && prev[n].name == n && NoneNamedAfter(front, i, n);
        assert ws[i] == front[i];
        forall j | 0 <= j < |ws| && i < j
          ensures ws[j].name != n
        {
          if j < |front| {
            assert ws[j] == front[j];
          }
        }
        assert ws[i] == r[n] && NoneNamedAfter(ws, i, n);
      }
    }
    forall i | 0 <= i < |ws|
      ensures ws[i].name in r
    {
      if i < |front| {
        assert ws[i] == front[i];
      }
    }
  }

  /** JavaScript truthiness of `walletName`: neither `null` nor the empty string. */
  predicate Truthy(name: Option<string>) {
    name.Some? && name.value != ""
  }

  /** The property name `wallets[walletName]` reads: JavaScript turns `null` into `"null"`. */
  function LookupKey(name: Option<string>): string {
    match name
    case None => "null"
    case Some(n) => n
  }

  /** `wallets[walletName]`, with `undefined` as `None`. */
  function Lookup(s: Store, name: Option<string>): Option<Wallet> {
    var key := LookupKey(name);
    if key in s.registry then Some(s.registry[key]) else None
  }

  // ---------------------------------------------------------------------------
  // Snapshot writes

  /** `setConnectionState`, `onReady`, `onConnect`, `onDisconnect`: publish a copy with a new state. */
  function SetState(s: Store, st: ConnectionState): (r: Store)
    ensures r.Current() == s.Current().(state := st)
    ensures r == s.(view := r.view)
    ensures s.view.Valid() ==> r.view.Valid()
    ensures |r.view.published| == |s.view.published| + 1 && r.view.published[..|s.view.published|] == s.view.published
  {
    s.(view := s.view.Update((w: Snapshot) => w.(state := st)))
  }

  /** The last `walletStore.update` of `switchAdapter`: wallet and signing wrappers. */
  function SetWallet(s: Store, w: Option<Wallet>, signers: Caps): (r: Store)
    ensures r.Current() == s.Current().(wallet := w, signers := signers)
    ensures r == s.(view := r.view)
    ensures s.view.Valid() ==> r.view.Valid()
    ensures |r.view.published| == |s.view.published| + 1 && r.view.published[..|s.view.published|] == s.view.published
  {
    s.(view := s.view.Update((snap: Snapshot) => snap.(wallet := w, signers := signers)))
  }

  // ---------------------------------------------------------------------------
  // Operations

  /**
   * `switchAdapter(wallet)`. The old adapter, if any, loses its handlers and is asked to
   * disconnect; `oldDisconnect` is how that call settles. If it rejects, the rejection
   * propagates before anything else happens: the unsubscribed adapter stays current and
   * nothing is published. Otherwise the state is reset, and a new adapter is built and
   * subscribed for `wallet`, whose signing wrappers mirror the new adapter's capabilities.
   */
  function SwitchAdapter(s: Store, wallet: Option<Wallet>, oldDisconnect: AdapterCall): (o: Outcome)
    ensures o.reply.Ok? <==> s.adapter.None? || oldDisconnect.Resolved?
    ensures s.adapter.Some? ==> |o.effects| >= 2 && o.effects[..2] == [Unsubscribe(s.adapter.value.instance), AdapterDisconnect(s.adapter.value.instance)]
    ensures o.reply.Err? ==>
      && o.store == s.(adapter := Some(s.adapter.value.(listening := false)))
      && o.reply.error == AdapterFailure(oldDisconnect.code)
    ensures o.reply.Ok? ==>
      && o.store.Current() == s.Current().(wallet := wallet, state := NotReady, signers := if wallet.Some? then wallet.value.caps else NoCaps)
      && o.store.registry == s.registry
      && (wallet.None? ==> o.store.adapter.None?)
      && (wallet.Some? ==> o.store.adapter == Some(Adapter(s.nextInstance, wallet.value, true)))
    ensures o.store.nextInstance >= s.nextInstance
    ensures s.view.Valid() ==> o.store.view.Valid()
    ensures forall k :: o.store.Current().signers.Has(k) ==> o.store.Current() == s.Current() || (wallet.Some? && wallet.value.caps.Has(k))
  {
    var teardown := if s.adapter.Some? then [Unsubscribe(s.adapter.value.instance), AdapterDisconnect(s.adapter.value.instance)] else [];
    if s.adapter.Some? && oldDisconnect.Rejected? then
      Outcome(s.(adapter := Some(s.adapter.value.(listening := false))), teardown, Err(AdapterFailure(oldDisconnect.code)))
    else
      var reset := SetState(s.(adapter := None), NotReady);
      match wallet
      case None =>
        Outcome(SetWallet(reset, None, NoCaps), teardown, Ok(Unit))
      case Some(w) =>
        var a := Adapter(s.nextInstance, w, true);
        var activated := reset.(adapter := Some(a), nextInstance := s.nextInstance + 1);
        Outcome(SetWallet(activated, wallet, w.caps), teardown + [CreateAdapter(a.instance, w.id), Subscribe(a.instance)], Ok(Unit))
  }

  /**
   * `select(walletName)`. A truthy name that is not registered rejects with
   * `WalletNotFound` before anything else happens. Otherwise the name is persisted (when
   * `window` exists); if the wallet the name looks up is the one already shown, nothing
   * more happens, else the store switches to it (or to no wallet).
   */
  function Select(s: Store, name: Option<string>, oldDisconnect: AdapterCall): (o: Outcome)
    ensures o.reply.Err? && o.reply.error.WalletNotFound? <==> Truthy(name) && name.value !in s.registry
    ensures Truthy(name) && name.value !in s.registry ==> o.store == s && o.effects == []
    ensures !(Truthy(name) && name.value !in s.registry) && s.browser ==>
      |o.effects| > 0 && o.effects[0] == Persist(if Truthy(name) then name.value else "")
    ensures !(Truthy(name) && name.value !in s.registry) && Lookup(s, name).Some? && Lookup(s, name) == s.Current().wallet ==>
      o.store == s && o.reply.Ok? && NoAdapterCall(o.effects)
    ensures !(Truthy(name) && name.value !in s.registry) && Lookup(s, name) != s.Current().wallet && o.reply.Ok? ==>
      o.store.Current().wallet == Lookup(s, name) && o.store.Current().state == NotReady
    ensures o.store.Current().state == s.Current().state || o.store.Current().state == NotReady
  {
    if Truthy(name) && name.value !in s.registry then
      Outcome(s, [], Err(WalletNotFound(name.value)))
    else
      var persist := if s.browser then [Persist(if Truthy(name) then name.value else "")] else [];
      var target := Lookup(s, name);
      if target.Some? && s.Current().wallet == target then
        Outcome(s, persist, Ok(Unit))
      else
        var o := SwitchAdapter(s, target, oldDisconnect);
        o.(effects := persist + o.effects)
  }

  /**
   * `connect()`, up to the point where it awaits the adapter. With no adapter it rejects
   * with "No wallet selected"; while `NotReady` it opens the wallet's install page and
   * rejects with `WalletNotReady`. Otherwise it publishes `Connecting` and calls the
   * adapter's `connect`; reaching `Connected` is left to the adapter's `connect` event.
   */
  function Connect(s: Store): (o: Outcome)
    ensures s.adapter.None? ==> o.store == s && o.effects == [] && o.reply == Err(NoWalletSelected)
    ensures s.adapter.Some? && s.Current().state == NotReady ==>
      o.store == s && o.reply.Err? && NoAdapterCall(o.effects)
    ensures s.adapter.Some? && s.Current().state == NotReady && s.browser && s.Current().wallet.Some? ==>
      o.reply == Err(WalletNotReady) && o.effects == [OpenUrl(s.Current().wallet.value.url)]
    ensures o.reply.Ok? <==> s.adapter.Some? && s.Current().state != NotReady
    ensures o.reply.Ok? ==>
      && o.store == SetState(s, Connecting)
      && o.effects == [AdapterConnect(s.adapter.value.instance)]
    ensures o.store.Current().state == s.Current().state || o.store.Current().state == Connecting
  {
    match s.adapter
    case None => Outcome(s, [], Err(NoWalletSelected))
    case Some(a) =>
      if s.Current().state == NotReady then
        if s.Current().wallet.None? || !s.browser then Outcome(s, [], Err(ScriptError))
        else Outcome(s, [OpenUrl(s.Current().wallet.value.url)], Err(WalletNotReady))
      else
        Outcome(SetState(s, Connecting), [AdapterConnect(a.instance)], Ok(Unit))
  }

  /**
   * The rest of `connect()`, once the adapter's `connect` settles. A rejection reverts the
   * state to `Ready` if it is still `Connecting` and is passed on to the caller; success
   * changes nothing.
   */
  function ConnectSettled(s: Store, result: AdapterCall): (o: Outcome)
    ensures o.effects == []
    ensures o.reply.Ok? <==> result.Resolved?
    ensures result.Rejected? ==> o.reply == Err(AdapterFailure(result.code))
    ensures result.Rejected? && s.Current().state == Connecting ==> o.store == SetState(s, Ready)
    ensures result.Resolved? || s.Current().state != Connecting ==> o.store == s
  {
    match result
    case Resolved(_) => Outcome(s, [], Ok(Unit))
    case Rejected(code) =>
      if s.Current().state == Connecting then Outcome(SetState(s, Ready), [], Err(AdapterFailure(code)))
      else Outcome(s, [], Err(AdapterFailure(code)))
  }

  /**
   * `disconnect()`: delegates to the adapter if there is one and passes on how that call
   * settles. The state change arrives later, through the adapter's `disconnect` event.
   */
  function Disconnect(s: Store, result: AdapterCall): (o: Outcome)
    ensures o.store == s
    ensures s.adapter.None? ==> o.effects == [] && o.reply == Ok(Unit)
    ensures s.adapter.Some? ==> o.effects == [AdapterDisconnect(s.adapter.value.instance)]
    ensures s.adapter.Some? ==> (o.reply.Ok? <==> result.Resolved?)
  {
    match s.adapter
    case None => Outcome(s, [], Ok(Unit))
    case Some(a) =>
      match result
      case Resolved(_) => Outcome(s, [AdapterDisconnect(a.instance)], Ok(Unit))
      case Rejected(code) => Outcome(s, [AdapterDisconnect(a.instance)], Err(AdapterFailure(code)))
  }

  /** Passes an adapter's answer on to the caller unchanged. */
  function Forward(result: AdapterCall): (r: Result<Value, WalletError>)
    ensures result.Resolved? ==> r == Ok(Returned(result.value))
    ensures result.Rejected? ==> r == Err(AdapterFailure(result.code))
  {
    match result
    case Resolved(v) => Ok(Returned(v))
    case Rejected(code) => Err(AdapterFailure(code))
  }

  /**
   * `sendTransaction(...)`: rejects with `WalletNotConnected` unless the state is
   * `Connected`, then with "No wallet selected" if there is no adapter; otherwise asks
   * the adapter and passes its answer on. The store never changes.
   */
  function SendTransaction(s: Store, result: AdapterCall): (o: Outcome)
    ensures o.store == s
    ensures s.Current().state != Connected ==> o.reply == Err(WalletNotConnected) && o.effects == []
    ensures NoAdapterCall(o.effects) <==> s.Current().state != Connected || s.adapter.None?
    ensures s.Current().state == Connected && s.adapter.Some? ==>
      o.effects == [AdapterSend(s.adapter.value.instance)] && o.reply == Forward(result)
  {
    if s.Current().state != Connected then Outcome(s, [], Err(WalletNotConnected))
    else match s.adapter
      case None => Outcome(s, [], Err(NoWalletSelected))
      case Some(a) =>
        assert AdapterSend(a.instance) in [AdapterSend(a.instance)];
        Outcome(s, [AdapterSend(a.instance)], Forward(result))
  }

  /**
   * A signing wrapper (`signTransaction`, `signAllTransactions` or `signMessage`) as
   * built by `switchAdapter`. It checks the state at call time and then calls the method
   * on whatever adapter is current at that moment, so a wrapper kept from an earlier
   * snapshot may find the method missing.
   */
  function Sign(s: Store, kind: SignKind, result: AdapterCall): (o: Outcome)
    ensures o.store == s
    ensures s.Current().state != Connected ==> o.reply == Err(WalletNotConnected) && o.effects == []
    ensures NoAdapterCall(o.effects) <==> !(s.Current().state == Connected && s.adapter.Some? && s.adapter.value.wallet.caps.Has(kind))
    ensures s.Current().state == Connected && s.adapter.Some? && s.adapter.value.wallet.caps.Has(kind) ==>
      o.effects == [AdapterSign(s.adapter.value.instance, kind)] && o.reply == Forward(result)
  {
    if s.Current().state != Connected then Outcome(s, [], Err(WalletNotConnected))
    else match s.adapter
      case None => Outcome(s, [], Err(ScriptError))
      case Some(a) =>
        if a.wallet.caps.Has(kind) then
          assert AdapterSign(a.instance, kind) in [AdapterSign(a.instance, kind)];
          Outcome(s, [AdapterSign(a.instance, kind)], Forward(result))
        else Outcome(s, [], Err(ScriptError))
  }

  /** The adapter `instance` still has the store's handlers attached. */
  predicate Listens(s: Store, instance: nat) {
    s.adapter.Some? && s.adapter.value.instance == instance && s.adapter.value.listening
  }

  /**
   * An adapter event reaches `onReady`, `onConnect`, `onDisconnect` or `onError` only
   * when it comes from the adapter the handlers are attached to. The three lifecycle
   * handlers publish a copy of the snapshot with only the state changed; errors go to
   * the error handler and change nothing.
   */
  function OnEvent(s: Store, instance: nat, ev: AdapterEvent): (o: Outcome)
    ensures o.reply == Ok(Unit)
    ensures !Listens(s, instance) || ev.ErrorEvent? ==> o.store == s
    ensures !Listens(s, instance) ==> o.effects == []
    ensures Listens(s, instance) && ev.ErrorEvent? ==> o.effects == [ReportError(ev.code)]
    ensures Listens(s, instance) && !ev.ErrorEvent? ==>
      && o.effects == []
      && o.store == SetState(s, if ev.ConnectEvent? then Connected else Ready)
  {
    if !Listens(s, instance) then Outcome(s, [], Ok(Unit))
    else match ev
      case ReadyEvent => Outcome(SetState(s, Ready), [], Ok(Unit))
      case ConnectEvent => Outcome(SetState(s, Connected), [], Ok(Unit))
      case DisconnectEvent => Outcome(SetState(s, Ready), [], Ok(Unit))
      case ErrorEvent(code) => Outcome(s, [ReportError(code)], Ok(Unit))
  }

  // ---------------------------------------------------------------------------
  // The state machine

  /** One thing that can happen to the store: a caller's call, or an answer from the outside. */
  datatype Input =
    | SelectCall(name: Option<string>, oldDisconnect: AdapterCall)
    | ConnectCall
    | ConnectSettles(result: AdapterCall)
    | DisconnectCall(result: AdapterCall)
    | SendCall(result: AdapterCall)
    | SignCall(kind: SignKind, result: AdapterCall)
    | Event(instance: nat, event: AdapterEvent)

  function Apply(s: Store, input: Input): Outcome {
    match input
    case SelectCall(name, previous) => Select(s, name, previous)
    case ConnectCall => Connect(s)
    case ConnectSettles(result) => ConnectSettled(s, result)
    case DisconnectCall(result) => Disconnect(s, result)
    case SendCall(result) => SendTransaction(s, result)
    case SignCall(kind, result) => Sign(s, kind, result)
    case Event(instance, ev) => OnEvent(s, instance, ev)
  }

  /** Some snapshot published after the first `from` publications has state `Ready`. */
  predicate PublishedReady(published: seq<Snapshot>, from: nat) {
    exists i :: from <= i < |published| && published[i].state == Ready
  }

  /**
   * Handles one input, then runs the autoconnect subscriber: when it is installed and the
   * input published a `Ready` snapshot, it calls `connect()` and drops that promise.
   */
  function Step(s: Store, input: Input): (o: Outcome)
    ensures var a := Apply(s, input);
      if s.autoconnect && PublishedReady(a.store.view.published, |s.view.published|)
      then o == Outcome(Connect(a.store).store, a.effects + Connect(a.store).effects, a.reply)
      else o == a
  {
    var a := Apply(s, input);
    if s.autoconnect && PublishedReady(a.store.view.published, |s.view.published|) then
      var c := Connect(a.store);
      Outcome(c.store, a.effects + c.effects, a.reply)
    else a
  }

  /**
   * `createWalletStore(options)`: builds the registry and the initial snapshot, installs
   * the autoconnect subscriber if asked, then resumes the wallet whose name was saved
   * (`saved`, the value read from local storage) when `window` exists. The promise of that
   * resuming `select` is dropped, so the store is handed back normally even when the saved
   * name is no longer registered.
   */
  function Create(wallets: seq<Wallet>, browser: bool, autoconnect: bool, saved: Option<string>): (o: Outcome)
    ensures o.store.registry == Registry(wallets)
    ensures o.store.autoconnect == autoconnect && o.store.browser == browser
    ensures o.store.Current().state == NotReady
    ensures !(browser && Truthy(saved)) ==> o.store.Current() == InitialSnapshot && o.effects == []
    ensures NoAdapterCall(o.effects)
    ensures o.reply == Ok(Unit)
  {
    var s0 := Store(Registry(wallets), browser, autoconnect, None, NewCell(InitialSnapshot), 0);
    if browser && Truthy(saved) then
      FirstSelectIsQuiet(s0, saved);
      var resumed := Step(s0, SelectCall(saved, Resolved(0)));
      Outcome(resumed.store, resumed.effects, Ok(Unit))
    else Outcome(s0, [], Ok(Unit))
  }

  /**
   * `switchAdapter` only ever publishes `NotReady` snapshots, and with no adapter to
   * replace it builds and subscribes a new one without calling any adapter.
   */
  lemma SwitchAdapterIsQuiet(s: Store, wallet: Option<Wallet>, oldDisconnect: AdapterCall)
    requires s.view.Valid()
    ensures var o := SwitchAdapter(s, wallet, oldDisconnect);
      && !PublishedReady(o.store.view.published, |s.view.published|)
      && (s.adapter.None? ==> NoAdapterCall(o.effects))
  {
    var o := SwitchAdapter(s, wallet, oldDisconnect);
    if o.reply.Ok? {
      var n := |s.view.published|;
      var reset := SetState(s.(adapter := None), NotReady);
      var p := o.store.view.published;
      assert p == reset.view.published + [o.store.Current()];
      assert reset.view.published == s.view.published + [reset.Current()];
      forall i | n <= i < |p|
        ensures p[i].state == NotReady
      {
        if i == n { assert p[i] == reset.Current(); }
      }
    }
  }

  /**
   * `select` never publishes `Ready` (it either leaves the snapshot alone or resets it), and
   * with no current adapter it calls none.
   */
  lemma SelectIsQuiet(s: Store, name: Option<string>, oldDisconnect: AdapterCall)
    requires s.view.Valid()
    ensures var o := Select(s, name, oldDisconnect);
      && !PublishedReady(o.store.view.published, |s.view.published|)
      && (s.adapter.None? ==> NoAdapterCall(o.effects))
  {
    var target := Lookup(s, name);
    if !(Truthy(name) && name.value !in s.registry) && !(target.Some? && s.Current().wallet == target) {
      SwitchAdapterIsQuiet(s, target, oldDisconnect);
      SelectSwitches(s, name, oldDisconnect);
      var w := SwitchAdapter(s, target, oldDisconnect);
      if s.adapter.None? {
        PersistIsNoAdapterCall(if s.browser then [Persist(if Truthy(name) then name.value else "")] else [], w.effects);
      }
    }
  }

  lemma PersistIsNoAdapterCall(persist: seq<Effect>, es: seq<Effect>)
    requires forall e | e in persist :: e.Persist?
    requires NoAdapterCall(es)
    ensures NoAdapterCall(persist + es)
  {
    assert forall e | e in persist + es :: e in persist || e in es;
  }

  /** A `select` that gets past its checks persists the name and then does what `switchAdapter` does. */
  lemma SelectSwitches(s: Store, name: Option<string>, oldDisconnect: AdapterCall)
    requires !(Truthy(name) && name.value !in s.registry) && !(Lookup(s, name).Some? && s.Current().wallet == Lookup(s, name))
    ensures var w := SwitchAdapter(s, Lookup(s, name), oldDisconnect);
      && Select(s, name, oldDisconnect).store == w.store
      && Select(s, name, oldDisconnect).effects == (if s.browser then [Persist(if Truthy(name) then name.value else "")] else []) + w.effects
  {
  }

  /**
   * A `select` made before any adapter exists publishes only `NotReady` snapshots, so the
   * autoconnect subscriber stays idle, and it calls no adapter.
   */
  lemma FirstSelectIsQuiet(s: Store, name: Option<string>)
    requires s.adapter.None? && s.Current().state == NotReady && s.view.Valid()
    ensures var o := Select(s, name, Resolved(0));
      && Step(s, SelectCall(name, Resolved(0))) == o
      && o.store.Current().state == NotReady
      && NoAdapterCall(o.effects)
  {
    SelectIsQuiet(s, name, Resolved(0));
    var o := Select(s, name, Resolved(0));
    assert Apply(s, SelectCall(name, Resolved(0))) == o;
  }
}

=== FILE: writable.dfy ===
/**
 * `wrappedWritableStore`: a writable observable whose current value can also be read
 * synchronously, without subscribing. Subscription fan-out is not modelled; instead the
 * cell keeps the ordered list of every value it has published. Svelte's `set` skips the
 * notification when the new value is `safe_not_equal` to the old one; every value the
 * wallet store writes is a fresh object, which never compares equal, so this list is
 * exactly the sequence a subscriber present from the start observes.
 */
module Writable {

  /** `current` is what the getter returns; `published` holds every value published so far, oldest first. */
  datatype Cell<T> = Cell(current: T, published: seq<T>) {

    /** The getter agrees with the value most recently handed to subscribers. */
    ghost predicate Valid() {
      |published| > 0 && published[|published| - 1] == current
    }

    /** The synchronous getter (the first component returned by `wrappedWritableStore`). */
    function Get(): T {
      current
    }

    /** `set(value)`: the getter returns `v` and `v` is published after every earlier value. */
    function Set(v: T): (c: Cell<T>)
      ensures c.Get() == v
      ensures Valid() ==> c.Valid()
      ensures |c.published| == |published| + 1 && c.published[..|published|] == published
    {
      Cell(v, published + [v])
    }

    /** `update(fn)`: applies `fn` to the value the getter returned and publishes the result. */
    function Update(f: T -> T): (c: Cell<T>)
      ensures c.Get() == f(Get())
      ensures Valid() ==> c.Valid()
      ensures |c.published| == |published| + 1 && c.published[..|published|] == published
    {
      Set(f(current))
    }
  }

  /** A fresh cell: a subscriber present from the start is handed the initial value first. */
  function NewCell<T>(initial: T): (c: Cell<T>)
    ensures c.Valid() && c.Get() == initial && c.published == [initial]
  {
    Cell(initial, [initial])
  }

  /**
   * Subscribers and the getter never disagree: after any run of writes the getter
   * returns the last value published, and the publications are exactly the initial
   * value followed by the writes, in order.
   */
  lemma {:induction false} WritesArePublishedInOrder<T>(initial: T, writes: seq<T>)
    ensures SetAll(NewCell(initial), writes).Valid()
    ensures SetAll(NewCell(initial), writes).published == [initial] + writes
    ensures |writes| > 0 ==> SetAll(NewCell(initial), writes).Get() == writes[|writes| - 1]
    decreases |writes|
  {
    if |writes| > 0 {
      var front := writes[..|writes| - 1];
      assert writes == front + [writes[|writes| - 1]];
      SetAllSnoc(NewCell(initial), front, writes[|writes| - 1]);
      WritesArePublishedInOrder(initial, front);
    }
  }

  /** Applies `set` once per element of `writes`, first to last. */
  function SetAll<T>(c: Cell<T>, writes: seq<T>): Cell<T>
    decreases |writes|
  {
    if |writes| == 0 then c else SetAll(c.Set(writes[0]), writes[1..])
  }

  lemma {:induction false} SetAllSnoc<T>(c: Cell<T>, writes: seq<T>, v: T)
    ensures SetAll(c, writes + [v]) == SetAll(c, writes).Set(v)
    decreases |writes|
  {
    if |writes| == 0 {
      assert writes + [v] == [v];
    } else {
      assert (writes + [v])[1..] == writes[1..] + [v];
      SetAllSnoc(c.Set(writes[0]), writes[1..], v);
    }
  }
}
